=== FILE: README.md ===
# Immersive Metal Skybox renderer, modelled in Dafny

The skybox sample draws a textured cube around the viewer in a fully
immersive visionOS space. Its `Renderer` actor does four things:

- keeps a ring of three uniform regions in one shared Metal buffer;
- caches three pairs of memoryless multisample render targets;
- limits the frames in flight with a counting semaphore;
- runs a render loop that follows the compositor layer's state and tells the
  app model whether the immersive space is open, in transition or closed.

This project models that core. The compositor, the GPU queue and world
tracking become inputs: each may or may not answer. Every effect of a frame
or of the loop becomes an event appended to a trace. Matrices, viewports and
rate maps are symbolic values.

Modules:

- `UniformRing` holds the 256-byte alignment of the uniform size, the slot
  rotation and the slot arithmetic.
- `TargetCache` holds the reuse-or-allocate rule of `renderTarget`.
  A `Texture` is an object, so reuse means the same reference and
  allocation means a fresh one.
- `FramePlan` holds the step sequence of `renderFrame` as functions of the
  world's answers. It also holds the render-pass descriptor and the encoded
  draw, with lemmas about ordering and counts.
- `LoopPlan` describes `renderLoop` as a state machine over the polled
  layer states, with lemmas about the notifications it posts.
- `Skybox` holds the `Renderer` class. Its fields are:
  - the uniform buffer and the target cache, as arrays of three;
  - the slot indices, the offset and the pointer offset;
  - the semaphore accounting;
  - the app model's immersive-space state;
  - the trace.

  The frame methods are proved to produce exactly the sequences of
  `FramePlan` and to update the arrays at the current slot only. Each loop
  pass is proved to produce one of two things:
  - the closing or pausing steps of `LoopPlan`, with the frame state
    untouched;
  - the `.open` notice, then the whole trace of one frame, with that frame's
    effect on the ring, the cache and the semaphore. That includes the
    render-pass descriptor the frame submits and, with MSAA, the new cache
    entry: sized for the drawable, and each texture either the slot's old
    one reused or a fresh allocation.

  A whole run of the loop is proved to be those passes one after another:
  its trace is the concatenation of the passes' events, and the frame
  state goes through one recorded state per pass, each pass changing it
  as above and nothing between passes changing it. At the loop's level the
  run follows the `LoopPlan` plan, and its semaphore waits, draws and
  commits come only from running passes, one per frame that gets that far.

## Semaphore accounting

The semaphore is modelled as three counters that always sum to three:
- free slots;
- the slot held by the frame being encoded;
- command buffers that are committed but not completed.

A wait when no slot is free is modelled as the oldest submission completing
first. That completion is recorded as a `GpuCompleted` event.

A ghost sequence `inFlight` records the uniform slots of the committed
command buffers the GPU has not completed, oldest first:
- a commit appends the current slot;
- a completion drops the oldest.

The class invariant ties it to the ring: these are the `outstanding` slots
just before the current one. So when a frame moves the ring on, the new
slot is not one the GPU may still be reading. This is the purpose of the
limit of three frames in flight.

## Two reads of the layer state

Each pass of `renderLoop` reads `layerRenderer.state` twice: once for the
invalidation check (`Renderer.swift:385`) and once for the pause check
(`Renderer.swift:391`). A `Tick` carries both reads. If the layer becomes
invalidated between them, the pass takes the running branch. It posts
`.open` and runs a frame, and the loop notices the invalidation on the next
pass. `Branch` gives the branch a pass takes, and the loop plan is written
over those branches.

## Cache reuse

A cached pair is reused only by the frame that comes back to the same slot.
The cache index moves on every frame, so that is three frames later, not the
next frame. This is what the code at `Renderer.swift:247-253` does. The model
follows the code, not the looser reading "the previous frame's targets are
reused".

## Model

| member | source | states |
|---|---|---|
| UniformRing.AlignedUniformsSize | Immersive_Metal_Skybox/Renderer.swift:15 | the aligned size is a multiple of 256, at least the struct size, below size + 256, and positive for a positive size |
| UniformRing.AlignedUniformsSizeIsLeast | Immersive_Metal_Skybox/Renderer.swift:15 | no multiple of 256 that holds the struct is smaller than the aligned size |
| UniformRing.UniformBufferSize | Immersive_Metal_Skybox/Renderer.swift:87 | the buffer ends exactly where the third slot's region ends, and is 256-byte aligned when the region size is |
| UniformRing.NextSlot | Immersive_Metal_Skybox/Renderer.swift:220 | the next uniform slot stays below maxBuffersInFlight and wraps from 2 to 0 |
| UniformRing.RotationPeriod | Immersive_Metal_Skybox/Renderer.swift:220 | three rotations return to the same slot after visiting three distinct slots |
| UniformRing.AdvancedWraps | Immersive_Metal_Skybox/Renderer.swift:220 | k rotations from a slot land on that slot plus k, mod 3 |
| UniformRing.BehindDropOldest | Immersive_Metal_Skybox/Renderer.swift:307-310 | when the oldest submission completes, the slots still in flight are those of the later ones |
| UniformRing.BehindExcludesNext | Immersive_Metal_Skybox/Renderer.swift:217-225 | with fewer than three submissions in flight, the slot the ring moves to is none of theirs |
| UniformRing.SlotOffset | Immersive_Metal_Skybox/Renderer.swift:222 | with a 256-aligned region size, every slot's offset is 256-byte aligned |
| UniformRing.RegionOfSlotOffset | Immersive_Metal_Skybox/Renderer.swift:222-224 | the pointer bound at a slot's offset addresses that slot's region |
| UniformRing.SlotFitsBuffer | Immersive_Metal_Skybox/Renderer.swift:87-89 | a slot's region ends inside a buffer of alignedUniformsSize * 3 bytes |
| UniformRing.SlotRegionsDisjoint | Immersive_Metal_Skybox/Renderer.swift:222 | the regions of two distinct slots do not overlap |
| Skybox.RasterSampleCount | Immersive_Metal_Skybox/Renderer.swift:81-85 | the count is 4 exactly when the device supports 32-bit MSAA and 4-sample textures, and 1 otherwise |
| Skybox.Renderer.constructor | Immersive_Metal_Skybox/Renderer.swift:74-112 | the ring and cache start at slot 0 with no cached targets, the semaphore starts at 3, and the depth state is "greater" with writes on |
| Skybox.Renderer.UpdateDynamicBufferState | Immersive_Metal_Skybox/Renderer.swift:217-225 | the index advances by one mod 3, the offset and the pointer follow it, offset + alignedUniformsSize fits the buffer, and the new slot is not held by any uncompleted submission |
| TargetCache.MemorylessDescriptor | Immersive_Metal_Skybox/Renderer.swift:234-242 | the descriptor is a memoryless, render-target, multisample-array texture with the resolve texture's format, size and array length and the renderer's sample count |
| TargetCache.ChooseTarget | Immersive_Metal_Skybox/Renderer.swift:230-243 | the cached texture is reused exactly when it exists and has the resolve texture's width and height; otherwise the memoryless descriptor is used |
| TargetCache.TargetMatchesResolution | Immersive_Metal_Skybox/Renderer.swift:229-244 | whatever is chosen has the resolve texture's width and height |
| TargetCache.RenderTarget | Immersive_Metal_Skybox/Renderer.swift:229-245 | it returns the cached reference when reusable, otherwise a newly allocated texture with the memoryless descriptor |
| Skybox.Renderer.MemorylessRenderTargets | Immersive_Metal_Skybox/Renderer.swift:247-255 | the cache index advances by one mod 3, only that slot is overwritten and with the returned pair, each texture is served by the reuse rule from the slot's previous entry, and the pair has the drawable's size |
| FramePlan.PoseTransform | Immersive_Metal_Skybox/Renderer.swift:261 | the pose is the anchor's transform when the device has an anchor, and the identity when it has none |
| FramePlan.ViewUniforms | Immersive_Metal_Skybox/Renderer.swift:263-270 | each view keeps its own projection; its view matrix inverts the view's transform composed after the anchor's transform, or after the identity without an anchor |
| Skybox.WriteUniforms | Immersive_Metal_Skybox/Renderer.swift:272-275 | view 0's uniforms are always written, and view 1's only for more than one view, otherwise kept |
| Skybox.Renderer.UpdateGameState | Immersive_Metal_Skybox/Renderer.swift:258-276 | the region under the pointer, which is the current slot's, gets the per-view uniforms; every other region is unchanged; and the slot written is not held by any uncompleted submission |
| FramePlan.OutcomeOf | Immersive_Metal_Skybox/Renderer.swift:281-347 | a frame is submitted exactly when frame, timing, command buffer, drawable and encoder are all present, and skipped exactly on the early returns |
| FramePlan.PassDescriptor | Immersive_Metal_Skybox/Renderer.swift:316-342 | with targets, the pass renders into them and multisample-resolves into the drawable; without targets, it renders into the drawable and stores; it clears colour to zero and depth to 0.0; it takes the first rate map; and it sets the array length to the view count only for the layered layout |
| FramePlan.ReversedDepth | Immersive_Metal_Skybox/Renderer.swift:335-338 | with the renderer's depth state (the "greater" test) against the pass's cleared depth of 0.0, a fragment passes exactly when its depth is above 0.0 |
| FramePlan.SkippedFrameSubmitsNothing | Immersive_Metal_Skybox/Renderer.swift:281-296 | a frame that returns early neither waits on the semaphore, starts a submission, commits nor ends a submission |
| FramePlan.EncodeDrawsOnce | Immersive_Metal_Skybox/Renderer.swift:371 | the encoder issues exactly one draw, of 36 triangle vertices from 0 |
| FramePlan.EncodeAmplifiesOnlyStereo | Immersive_Metal_Skybox/Renderer.swift:363-369 | vertex amplification is set once for more than one view and never otherwise, with the view count and the identity view mappings |
| FramePlan.EncodeEventsAreEncoderCommands | Immersive_Metal_Skybox/Renderer.swift:352-372 | between creating and ending the encoder only encoder commands are issued |
| FramePlan.WaitBeforeSubmission | Immersive_Metal_Skybox/Renderer.swift:298-300 | a proceeding frame waits on the semaphore exactly once, immediately before the single startSubmission |
| FramePlan.SubmissionDrawsOnce | Immersive_Metal_Skybox/Renderer.swift:345-371 | a submitted frame draws once, and a frame without an encoder draws nothing |
| FramePlan.SubmissionEndsInOrder | Immersive_Metal_Skybox/Renderer.swift:374-380 | a submitted frame ends with endEncoding, encodePresent, commit and endSubmission, once each and in that order |
| FramePlan.FrameLoopView | Immersive_Metal_Skybox/Renderer.swift:278-381 | whatever its outcome, a frame shows at the loop's level as its frame query alone |
| FramePlan.CommitIffSubmitted | Immersive_Metal_Skybox/Renderer.swift:281-378 | a frame waits on the semaphore exactly when it gets past its early returns, and draws once and commits once exactly when it is submitted |
| FramePlan.FrameTraceView | Immersive_Metal_Skybox/Renderer.swift:278-381 | any frame, whether it returns early or not, shows at the loop's level as its frame query alone, waits on the semaphore once exactly when it gets past its early returns, and draws once and commits once exactly when it is submitted |
| Skybox.Renderer.WaitInFlight | Immersive_Metal_Skybox/Renderer.swift:298 | the wait takes a free slot, first completing the oldest submission when none is free, which then leaves the in-flight slots |
| Skybox.Renderer.CompleteOldestSubmission | Immersive_Metal_Skybox/Renderer.swift:307-310 | a completed command buffer's handler returns its slot to the semaphore, and the oldest in-flight slot is dropped |
| Skybox.Renderer.CommitCommandBuffer | Immersive_Metal_Skybox/Renderer.swift:378 | committing hands the frame's slot to the GPU: it becomes the newest in-flight slot |
| Skybox.Renderer.EncodeSkybox | Immersive_Metal_Skybox/Renderer.swift:352-372 | the encoded commands are the skybox draw sequence at the current uniform offset |
| Skybox.Renderer.FramePrologue | Immersive_Metal_Skybox/Renderer.swift:281-296 | the steps up to the semaphore wait, and the early outcome exactly when the frame does not proceed |
| Skybox.Renderer.BeginSubmission | Immersive_Metal_Skybox/Renderer.swift:298-310 | the semaphore wait, then startSubmission, the anchor query at the presentation time, the anchor assignment and the completion handler; the in-flight slots lose the oldest exactly when the wait had to block |
| Skybox.Renderer.PrepareFrame | Immersive_Metal_Skybox/Renderer.swift:312-342 | the uniform ring and cache advance as above to a slot no uncompleted submission holds, and the pass uses the cached pair exactly when the sample count is above 1 |
| Skybox.Renderer.EncodeAndCommit | Immersive_Metal_Skybox/Renderer.swift:345-380 | with an encoder, the draw, end, present, commit and endSubmission, and the slot joins the in-flight slots; without one, a fatal error |
| Skybox.Renderer.SubmitFrame | Immersive_Metal_Skybox/Renderer.swift:298-380 | the trace is the submission sequence, the semaphore accounting balances, the uniform and cache updates are as above, and the slot written is free of uncompleted submissions |
| Skybox.Renderer.RenderFrame | Immersive_Metal_Skybox/Renderer.swift:278-381 | the outcome and the trace are those of the frame plan; a skipped frame changes nothing but the trace; a proceeding frame advances the uniform ring to a slot no uncompleted submission holds and writes only that slot; with MSAA the cache moves to the same slot and takes a pair served by the reuse rule from that slot's old entry, and the submitted descriptor renders into that pair; without MSAA the cache is untouched and the descriptor renders into the drawable |
| Skybox.Renderer.RenderFrameInPool | Immersive_Metal_Skybox/Renderer.swift:403-405 | the frame's outcome, its whole trace (the prologue or the frame plan) and its effect on the ring, the cache and the semaphore; the submitted descriptor is the one built from the drawable, the layout and, with MSAA, the new cache entry, which is sized for the drawable and served by the reuse rule from the slot's old entry |
| Skybox.Branch | Immersive_Metal_Skybox/Renderer.swift:385-397 | a pass returns exactly when the first read says invalidated, waits exactly when the first read does not and the second says paused, and runs a frame in every other case |
| Skybox.LoopStop | Immersive_Metal_Skybox/Renderer.swift:385-406 | the loop stops on an invalidated first read, and on a running frame that hits a fatal error, and nowhere else |
| Skybox.LateInvalidationRunsFrame | Immersive_Metal_Skybox/Renderer.swift:385-405 | a layer invalidated between the invalidation check and the pause check still gets a running pass with a frame, which stops the loop only on a fatal error |
| Skybox.IterationView | Immersive_Metal_Skybox/Renderer.swift:385-405 | a pass shows at the loop's level as its plan step; it waits on the semaphore only when it runs a frame that gets past the early returns, and draws and commits only when it runs a frame that is submitted |
| Skybox.Renderer.LoopIteration | Immersive_Metal_Skybox/Renderer.swift:385-406 | an invalidated pass posts `.closed` and stops; a paused pass posts `.inTransition` and waits; neither touches the frame state. A running pass posts `.open` unless already open, then produces the whole trace of one frame with its effect on the frame state, including the submitted descriptor and, with MSAA, the new cache entry served by the reuse rule; the ring moves on exactly when that frame proceeds |
| Skybox.Renderer.InvalidatedPass | Immersive_Metal_Skybox/Renderer.swift:385-390 | the pass posts `.closed`, sets the app state to closed and stops the loop |
| Skybox.Renderer.PausedPass | Immersive_Metal_Skybox/Renderer.swift:391-396 | the pass posts `.inTransition`, sets the app state to in transition and waits until the layer runs |
| Skybox.Renderer.RunningPass | Immersive_Metal_Skybox/Renderer.swift:397-405 | the pass posts `.open` unless already open, then runs one frame with its whole trace and its effect on the frame state, including the submitted descriptor and, with MSAA, the new cache entry served by the reuse rule; it stops only on a fatal error |
| Skybox.FirstStop | Immersive_Metal_Skybox/Renderer.swift:385-406 | the first iteration that stops the loop is in range, and it does stop the loop |
| Skybox.FirstStopIsFirst | Immersive_Metal_Skybox/Renderer.swift:385-406 | no iteration before it stops the loop |
| Skybox.Renderer.RenderLoop | Immersive_Metal_Skybox/Renderer.swift:383-408 | the loop runs through the first stopping pass, or through all polls if none stops it, and exits for that pass's reason. Its loop-level trace and the app state are those of the plan. Its semaphore waits number the frames that got past their early returns, and its draws and its commits each number the submitted frames, all counted only over running passes. The ring has advanced once per such frame, and the renderer holds no semaphore slot at the end unless a fatal error stopped the loop. The whole trace the run adds is the concatenation of its passes' events, each exactly its branch's events, and the frame state (uniform regions, cache entries and index, semaphore and in-flight slots) runs from the state before the loop to the state after it through one recorded state per pass: unchanged by a pass that does not run a frame, and changed by that frame's effect, with its submitted descriptor, by one that does |
| Skybox.Renderer.AccountedPass | Immersive_Metal_Skybox/Renderer.swift:384-406 | one pass of the loop extends the loop-level plan, the app state, the wait, draw and commit counts and the ring position by that pass's share; its events are exactly its branch's, and it leaves the frame state unchanged unless it runs a frame, whose effect it then has |
| Skybox.PassAccounting | Immersive_Metal_Skybox/Renderer.swift:384-406 | the events of one more pass extend the plan by its step, and the wait, draw and commit counts by its frame's |
| Skybox.RecordStep | Immersive_Metal_Skybox/Renderer.swift:384-406 | the record of the first n passes and what pass n did together form the record of n + 1 passes, whose events are the earlier ones followed by pass n's |
| Skybox.IndexStep | Immersive_Metal_Skybox/Renderer.swift:384-406 | after one more pass the ring has moved on once more exactly when that pass ran a frame past its early returns |
| Skybox.FrameWorkOnlyWhenRunning | Immersive_Metal_Skybox/Renderer.swift:383-408 | over any run of passes, submitted frames are no more than frames past their early returns, which are no more than running passes |
| Skybox.LoopOutcome | Immersive_Metal_Skybox/Renderer.swift:383-408 | over the iterations the loop runs, `.closed` is posted once, as the last loop event, exactly when the loop returns on invalidation; one frame starts per running poll |
| LoopPlan.NoClosedBeforeInvalidated | Immersive_Metal_Skybox/Renderer.swift:385-390 | `.closed` is never posted before the layer is invalidated |
| LoopPlan.ClosedExactlyOnce | Immersive_Metal_Skybox/Renderer.swift:385-390 | a run ending on invalidation posts `.closed` exactly once, as its last loop event |
| LoopPlan.FramesOnlyWhenRunning | Immersive_Metal_Skybox/Renderer.swift:391-405 | frames are started exactly as often as the layer was seen running |
| LoopPlan.OpenOnlyOnChange | Immersive_Metal_Skybox/Renderer.swift:398-402 | a running iteration posts `.open` only when the state is not already open |
| LoopPlan.PauseAndResume | Immersive_Metal_Skybox/Renderer.swift:383-408 | running, paused, running, invalidated gives a frame, then `.inTransition` and a wait, then `.open` and a frame, then `.closed` |

## Left out

- Metal and ARKit object creation is not modelled: device, command queue,
  buffers, pipeline, vertex descriptor, texture loading, shader library and
  the ARKit session start. These are foreign framework calls without logic.
  The model keeps only their results: the depth-state settings, the buffer
  length, and whether a command buffer or an encoder is available.
- World tracking is an input. `queryDeviceAnchor(atTimestamp:)` is recorded
  with the drawable's presentation time, and its answer is an arbitrary
  `Option`. `Duration.timeInterval` and its floating-point conversion are
  not modelled.
- Matrix arithmetic is symbolic. The product and inverse in the view matrix
  are not computed, and the cube's vertex coordinates are reduced to their
  count of 36.
- Concurrency is sequentialised:
  - the task executor and the actor isolation are not modelled;
  - `Task { @MainActor }` hops and `autoreleasepool` are not modelled;
  - notifications take effect at once, so the `!= .open` check reads the
    app state the loop last set;
  - `Clock().wait(until:)` is only an event;
  - GPU completion handlers run only when a wait finds no free slot.
- `renderLoop` polls a finite sequence of ticks, each holding the pass's
  two reads of the layer state. `TicksExhausted` is how the model ends a
  run in which the layer is never invalidated. `waitUntilRunning` is an
  event, and the next polled state is whatever the sequence says.
- `fatalError` ends the process. The model returns a `Crashed` outcome and
  the loop stops; nothing after it is modelled.
- Drawables are assumed to have at least one colour texture, one depth
  texture and one view (`WellFormed`, required through `InputsWellFormed`).
  The source reads `colorTextures[0]` and `depthTextures[0]`
  (`Renderer.swift:250-251`, `328-329`) and `views[0]`
  (`Renderer.swift:264`, `272`) without checking. The trap on an empty one
  is not modelled.
- Texture allocation (`makeTexture(descriptor:)!`) is assumed to succeed. A
  failed allocation would trap, and the model does not represent it.
- Debug labels, the "Primary Render Encoder" label and the
  `print("Layer is invalidated")` logging at `Renderer.swift:386` are not
  modelled.
- `AppModel.swift` and `ShaderTypes.h` are not part of this model:
  - the app state is the three-valued `ImmersiveSpaceState`;
  - `MemoryLayout<UniformsArray>.size` is a parameter of the constructor.

=== FILE: events.dfy ===
/**
 * The renderer's observable effects, recorded as a trace: calls on the
 * compositor frame, the clock, the in-flight semaphore, the command buffer
 * and the render encoder, and the immersive-space notifications posted to
 * the main actor.
 */
module Events {
  import opened Wrappers
  import opened Graphics

  /** AppModel.immersiveSpaceState, as far as the renderer writes it. */
  datatype ImmersiveSpaceState = Closed | InTransition | Open

  /** LayerRenderer.State, polled once per loop iteration. */
  datatype LayerState = Running | Paused | Invalidated

  /** The two per-frame conditions the renderer answers with fatalError. */
  datatype FatalError = CommandBufferUnavailable | RenderEncoderUnavailable

  datatype CullMode = CullNone | CullFront | CullBack
  datatype PrimitiveType = Point | Line | LineStrip | Triangle | TriangleStrip

  /** The GPU buffers the draw binds. */
  datatype Buffer = SkyboxVertexBuffer | DynamicUniformBuffer

  /** BufferIndex and TextureIndex of the shader interface. */
  datatype BufferIndex = MeshPositions | UniformsIndex
  datatype TextureIndex = ColorTexture

  /** MTLVertexAmplificationViewMapping. */
  datatype ViewMapping = ViewMapping(viewportArrayIndexOffset: nat, renderTargetArrayIndexOffset: nat)

  datatype Event =
    // compositor frame
    | QueryNextFrame
    | StartUpdate
    | EndUpdate
    | WaitUntil(instant: Instant)
    | StartSubmission
    | EndSubmission
    // in-flight limiter
    | GpuCompleted
    | SemaphoreWait
    // tracking
    | QueryDeviceAnchor(timestamp: Instant)
    | SetDeviceAnchor(anchor: Option<Matrix>)
    // command buffer and encoder
    | AddCompletedHandler
    | MakeRenderCommandEncoder(pass: RenderPassDescriptor)
    | PushDebugGroup(name: string)
    | SetCullMode(mode: CullMode)
    | SetRenderPipelineState
    | SetDepthStencilState
    | SetVertexBuffer(buffer: Buffer, offset: nat, index: BufferIndex)
    | SetFragmentTexture(textureIndex: TextureIndex)
    | SetViewports(viewports: seq<Viewport>)
    | SetVertexAmplificationCount(count: nat, mappings: seq<ViewMapping>)
    | DrawPrimitives(primitive: PrimitiveType, vertexStart: nat, vertexCount: nat)
    | PopDebugGroup
    | EndEncoding
    | EncodePresent
    | Commit
    | Fatal(error: FatalError)
    // render loop
    | Notify(state: ImmersiveSpaceState)
    | WaitUntilRunning

  /** How many events of `s` satisfy `p`. */
  function Count(s: seq<Event>, p: Event -> bool): nat
  {
    if |s| == 0 then 0 else (if p(s[0]) then 1 else 0) + Count(s[1..], p)
  }

  lemma {:induction false} CountConcat(a: seq<Event>, b: seq<Event>, p: Event -> bool)
    ensures Count(a + b, p) == Count(a, p) + Count(b, p)
  {
    if |a| == 0 {
      assert a + b == b;
    } else {
      assert (a + b)[1..] == a[1..] + b;
      CountConcat(a[1..], b, p);
    }
  }

  lemma {:induction false} CountNone(s: seq<Event>, p: Event -> bool)
    requires forall e | e in s :: !p(e)
    ensures Count(s, p) == 0
  {
    if |s| > 0 {
      assert s[0] in s;
      assert forall e | e in s[1..] :: e in s;
      CountNone(s[1..], p);
    }
  }

  lemma ConcatAssociates(a: seq<Event>, b: seq<Event>, c: seq<Event>)
    ensures a + b + c == a + (b + c)
  {
  }

  /** The event sequences of `steps` one after another. */
  function Flatten(steps: seq<seq<Event>>): seq<Event>
  {
    if |steps| == 0 then [] else Flatten(steps[..|steps| - 1]) + steps[|steps| - 1]
  }

  /** The events of `s` that satisfy `p`, in order. */
  function Filter(s: seq<Event>, p: Event -> bool): seq<Event>
  {
    if |s| == 0 then [] else (if p(s[0]) then [s[0]] else []) + Filter(s[1..], p)
  }

  lemma {:induction false} FilterConcat(a: seq<Event>, b: seq<Event>, p: Event -> bool)
    ensures Filter(a + b, p) == Filter(a, p) + Filter(b, p)
  {
    if |a| == 0 {
      assert a + b == b;
    } else {
      var head := if p(a[0]) then [a[0]] else [];
      assert (a + b)[0] == a[0];
      assert (a + b)[1..] == a[1..] + b;
      FilterConcat(a[1..], b, p);
      calc {
        Filter(a + b, p);
        head + Filter(a[1..] + b, p);
        head + (Filter(a[1..], p) + Filter(b, p));
        (head + Filter(a[1..], p)) + Filter(b, p);
      }
    }
  }

  lemma {:induction false} FilterNone(s: seq<Event>, p: Event -> bool)
    requires forall e | e in s :: !p(e)
    ensures Filter(s, p) == []
  {
    if |s| > 0 {
      assert s[0] in s;
      assert forall e | e in s[1..] :: e in s;
      FilterNone(s[1..], p);
    }
  }

  predicate IsSemaphoreWait(e: Event) { e.SemaphoreWait? }
  predicate IsStartSubmission(e: Event) { e.StartSubmission? }
  predicate IsDraw(e: Event) { e.DrawPrimitives? }
  predicate IsAmplification(e: Event) { e.SetVertexAmplificationCount? }
  predicate IsEndEncoding(e: Event) { e.EndEncoding? }
  predicate IsPresent(e: Event) { e.EncodePresent? }
  predicate IsCommit(e: Event) { e.Commit? }
  predicate IsEndSubmission(e: Event) { e.EndSubmission? }
  predicate IsFrameStart(e: Event) { e.QueryNextFrame? }
  predicate IsClosedNotice(e: Event) { e == Notify(Closed) }
  predicate IsOpenNotice(e: Event) { e == Notify(Open) }

  /** The events the render loop itself produces: the notifications, the wait
      while paused, and the start of each frame. */
  predicate IsLoopEvent(e: Event) { e.Notify? || e.WaitUntilRunning? || e.QueryNextFrame? }

  /** The loop-level view of a trace. */
  function LoopView(s: seq<Event>): seq<Event>
  {
    Filter(s, IsLoopEvent)
  }
}

=== FILE: frame_plan.dfy ===
/**
 * The fixed step sequence of `renderFrame`, as specification functions over
 * the environment's answers: which effects a frame has, in which order, with
 * which draw and render-pass parameters. The renderer (module Skybox) is
 * proved to produce exactly these traces.
 */
module FramePlan {
  import opened Wrappers
  import opened Graphics
  import opened Events
  import opened TargetCache

  /** The skybox cube: 6 faces of 2 triangles of 3 vertices. */
  const SkyboxVertexCount: nat := 36

  /** LayerRenderer.Frame.Timing as far as the renderer reads it. */
  datatype FrameTiming = FrameTiming(optimalInputTime: Instant)

  /** A LayerRenderer.Frame: what `predictTiming()` and `queryDrawable()` answer. */
  datatype FrameHandle = FrameHandle(timing: Option<FrameTiming>, drawable: Option<Drawable>)

  /** What the outside world answers during one `renderFrame` call. */
  datatype FrameInputs = FrameInputs(
    frame: Option<FrameHandle>,        // layerRenderer.queryNextFrame()
    commandBufferAvailable: bool,      // commandQueue.makeCommandBuffer() is not nil
    deviceAnchor: Option<Matrix>,      // worldTracking.queryDeviceAnchor(atTimestamp:), its originFromAnchorTransform
    renderEncoderAvailable: bool)      // commandBuffer.makeRenderCommandEncoder(descriptor:) is not nil

  predicate InputsWellFormed(inputs: FrameInputs)
  {
    inputs.frame.Some? && inputs.frame.value.drawable.Some? ==> WellFormed(inputs.frame.value.drawable.value)
  }

  /** The frame gets past every early return: there is a frame, a timing
      prediction, a command buffer and a drawable. */
  predicate Proceeds(inputs: FrameInputs)
  {
    && inputs.frame.Some?
    && inputs.frame.value.timing.Some?
    && inputs.commandBufferAvailable
    && inputs.frame.value.drawable.Some?
  }

  function DrawableOf(inputs: FrameInputs): Drawable
    requires Proceeds(inputs)
  {
    inputs.frame.value.drawable.value
  }

  /** How a `renderFrame` call ends: an early return, a fatalError, or a
      committed command buffer. */
  datatype FrameOutcome = Skipped | Crashed(error: FatalError) | Submitted

  function OutcomeOf(inputs: FrameInputs): (outcome: FrameOutcome)
    ensures outcome == Submitted <==> Proceeds(inputs) && inputs.renderEncoderAvailable
    ensures outcome == Skipped <==>
              || inputs.frame.None?
              || inputs.frame.value.timing.None?
              || (inputs.commandBufferAvailable && inputs.frame.value.drawable.None?)
  {
    match inputs.frame
    case None => Skipped
    case Some(frame) =>
      if frame.timing.None? then Skipped
      else if !inputs.commandBufferAvailable then Crashed(CommandBufferUnavailable)
      else if frame.drawable.None? then Skipped
      else if !inputs.renderEncoderAvailable then Crashed(RenderEncoderUnavailable)
      else Submitted
  }

  // ---- uniforms ----

  /** One view's shader uniforms. */
  datatype Uniforms = Uniforms(projectionMatrix: Matrix, modelViewMatrix: Matrix)

  /** UniformsArray: the uniforms of the (at most) two views, `.0` and `.1`. */
  datatype UniformsArray = UniformsArray(uniforms0: Uniforms, uniforms1: Uniforms)

  /** deviceAnchor?.originFromAnchorTransform ?? matrix_identity_float4x4:
      the anchor's transform when the device has an anchor, the identity
      when it has none. */
  function PoseTransform(deviceAnchor: Option<Matrix>): (pose: Matrix)
    ensures deviceAnchor.Some? ==> pose == deviceAnchor.value
    ensures deviceAnchor.None? ==> pose == Identity
  {
    match deviceAnchor
    case Some(transform) => transform
    case None => Identity
  }

  /** uniforms(forViewIndex:): each view keeps its own projection, and its
      view matrix inverts the view's transform composed after the anchor's
      transform, or after the identity when the device has no anchor. */
  function ViewUniforms(d: Drawable, deviceAnchor: Option<Matrix>, viewIndex: nat): (u: Uniforms)
    requires viewIndex < |d.views|
    ensures u.projectionMatrix == d.views[viewIndex].projection
    ensures deviceAnchor.None? ==> u.modelViewMatrix == Inverse(Product(Identity, d.views[viewIndex].transform))
    ensures deviceAnchor.Some? ==> u.modelViewMatrix == Inverse(Product(deviceAnchor.value, d.views[viewIndex].transform))
  {
    var view := d.views[viewIndex];
    var viewMatrix := Inverse(Product(PoseTransform(deviceAnchor), view.transform));
    Uniforms(view.projection, viewMatrix)
  }

  // ---- render pass ----

  function FirstRateMap(maps: seq<RasterizationRateMap>): Option<RasterizationRateMap>
  {
    if |maps| == 0 then None else Some(maps[0])
  }

  /** The render pass descriptor `renderFrame` builds. `targets` is the cache
      entry when multisampling and None otherwise. */
  function PassDescriptor(d: Drawable, targets: Option<TargetPair>, layout: LayerLayout): (p: RenderPassDescriptor)
    requires WellFormed(d)
    ensures targets.Some? ==>
              && p.colorAttachment.texture == targets.value.color
              && p.colorAttachment.resolveTexture == Some(d.colorTextures[0])
              && p.colorAttachment.storeAction == MultisampleResolve
              && p.depthAttachment.texture == targets.value.depth
              && p.depthAttachment.resolveTexture == Some(d.depthTextures[0])
              && p.depthAttachment.storeAction == MultisampleResolve
    ensures targets.None? ==>
              && p.colorAttachment.texture == d.colorTextures[0]
              && p.colorAttachment.resolveTexture == None
              && p.colorAttachment.storeAction == Store
              && p.depthAttachment.texture == d.depthTextures[0]
              && p.depthAttachment.resolveTexture == None
              && p.depthAttachment.storeAction == Store
    ensures p.colorAttachment.loadAction == Clear && p.clearColor == ClearColor(0.0, 0.0, 0.0, 0.0)
    ensures p.depthAttachment.loadAction == Clear && p.clearDepth == 0.0
    ensures p.rasterizationRateMap == FirstRateMap(d.rasterizationRateMaps)
    ensures p.renderTargetArrayLength.Some? <==> layout == LayeredLayout
    ensures p.renderTargetArrayLength.Some? ==> p.renderTargetArrayLength.value == |d.views|
  {
    var attachments :=
      if targets.Some? then
        (Attachment(targets.value.color, Some(d.colorTextures[0]), LoadDontCare, MultisampleResolve),
         Attachment(targets.value.depth, Some(d.depthTextures[0]), LoadDontCare, MultisampleResolve))
      else
        (Attachment(d.colorTextures[0], None, LoadDontCare, Store),
         Attachment(d.depthTextures[0], None, LoadDontCare, Store));
    var color := attachments.0.(loadAction := Clear);
    var depth := attachments.1.(loadAction := Clear);
    RenderPassDescriptor(color, ClearColor(0.0, 0.0, 0.0, 0.0), depth, 0.0,
                         FirstRateMap(d.rasterizationRateMaps),
                         if layout == LayeredLayout then Some(|d.views|) else None)
  }

  /** The depth state built at start-up: reversed-Z, depth writes on. */
  const SkyboxDepthState: DepthStencilDescriptor := DepthStencilDescriptor(Greater, true)

  /** With the start-up depth state and the depth cleared to 0.0 (reversed Z),
      a fragment passes against the cleared depth exactly when it lies in
      front of the far plane. */
  lemma ReversedDepth(d: Drawable, targets: Option<TargetPair>, layout: LayerLayout, fragment: real)
    requires WellFormed(d)
    ensures var cleared := PassDescriptor(d, targets, layout).clearDepth;
            DepthTestPasses(SkyboxDepthState.depthCompareFunction, fragment, cleared) <==> fragment > 0.0
  {
  }

  // ---- the event sequence ----

  /** Everything up to the semaphore wait: the frame query, the update-phase
      bracket, the wait for the optimal input time, and the fatalError when
      the queue has no command buffer. */
  function PrologueEvents(inputs: FrameInputs): seq<Event>
  {
    [QueryNextFrame]
    + match inputs.frame
      case None => []
      case Some(frame) =>
        [StartUpdate, EndUpdate]
        + match frame.timing
          case None => []
          case Some(timing) =>
            [WaitUntil(timing.optimalInputTime)]
            + (if inputs.commandBufferAvailable then [] else [Fatal(CommandBufferUnavailable)])
  }

  function Viewports(views: seq<View>): (viewports: seq<Viewport>)
    ensures |viewports| == |views|
  {
    seq(|views|, i requires 0 <= i < |views| => views[i].viewport)
  }

  /** (0..<count).map { MTLVertexAmplificationViewMapping($0, $0) } */
  function IdentityViewMappings(count: nat): (mappings: seq<ViewMapping>)
    ensures |mappings| == count
  {
    seq(count, (i: nat) => ViewMapping(i, i))
  }

  /** Vertex amplification is switched on only for more than one view. */
  function AmplificationEvents(views: seq<View>): seq<Event>
  {
    if |views| > 1 then [SetVertexAmplificationCount(|views|, IdentityViewMappings(|views|))] else []
  }

  /** The commands encoded between creating the encoder and ending it. */
  function EncodeEvents(d: Drawable, uniformBufferOffset: nat): seq<Event>
  {
    [ PushDebugGroup("Draw Skybox"),
      SetCullMode(CullFront),
      SetRenderPipelineState,
      SetDepthStencilState,
      SetVertexBuffer(SkyboxVertexBuffer, 0, MeshPositions),
      SetVertexBuffer(DynamicUniformBuffer, uniformBufferOffset, UniformsIndex),
      SetFragmentTexture(ColorTexture),
      SetViewports(Viewports(d.views)) ]
    + AmplificationEvents(d.views)
    + [DrawPrimitives(Triangle, 0, SkyboxVertexCount), PopDebugGroup]
  }

  /** The events from the semaphore wait on. `blocked` says that no slot was
      free, so the oldest submission had to complete first. */
  function SubmissionEvents(d: Drawable, deviceAnchor: Option<Matrix>, blocked: bool,
                            uniformBufferOffset: nat, pass: RenderPassDescriptor,
                            renderEncoderAvailable: bool): seq<Event>
  {
    (if blocked then [GpuCompleted] else [])
    + [ SemaphoreWait,
        StartSubmission,
        QueryDeviceAnchor(d.presentationTime),
        SetDeviceAnchor(deviceAnchor),
        AddCompletedHandler,
        MakeRenderCommandEncoder(pass) ]
    + (if renderEncoderAvailable then
         EncodeEvents(d, uniformBufferOffset) + [EndEncoding, EncodePresent, Commit, EndSubmission]
       else
         [Fatal(RenderEncoderUnavailable)])
  }

  /** The whole trace of one `renderFrame` call. */
  function FrameEvents(inputs: FrameInputs, blocked: bool, uniformBufferOffset: nat, pass: RenderPassDescriptor): seq<Event>
  {
    PrologueEvents(inputs)
    + if Proceeds(inputs) then
        SubmissionEvents(DrawableOf(inputs), inputs.deviceAnchor, blocked, uniformBufferOffset, pass, inputs.renderEncoderAvailable)
      else []
  }

  // ---- properties of the sequence ----

  /** A frame that returns early waits on nothing and submits nothing. */
  lemma SkippedFrameSubmitsNothing(inputs: FrameInputs)
    requires !Proceeds(inputs)
    ensures SemaphoreWait !in PrologueEvents(inputs)
    ensures StartSubmission !in PrologueEvents(inputs)
    ensures Commit !in PrologueEvents(inputs)
    ensures EndSubmission !in PrologueEvents(inputs)
  {
  }

  /** Encoding issues exactly one draw: a triangle list of the 36 cube
      vertices from vertex 0, whatever the number of views. */
  lemma {:induction false} EncodeDrawsOnce(d: Drawable, uniformBufferOffset: nat)
    ensures Count(EncodeEvents(d, uniformBufferOffset), IsDraw) == 1
    ensures DrawPrimitives(Triangle, 0, SkyboxVertexCount) in EncodeEvents(d, uniformBufferOffset)
  {
    var head := [ PushDebugGroup("Draw Skybox"), SetCullMode(CullFront), SetRenderPipelineState,
                  SetDepthStencilState, SetVertexBuffer(SkyboxVertexBuffer, 0, MeshPositions),
                  SetVertexBuffer(DynamicUniformBuffer, uniformBufferOffset, UniformsIndex),
                  SetFragmentTexture(ColorTexture), SetViewports(Viewports(d.views)) ];
    var amplification := AmplificationEvents(d.views);
    var tail := [DrawPrimitives(Triangle, 0, SkyboxVertexCount), PopDebugGroup];
    assert EncodeEvents(d, uniformBufferOffset) == head + amplification + tail;
    CountConcat(head + amplification, tail, IsDraw);
    CountConcat(head, amplification, IsDraw);
    CountNone(head, IsDraw);
    CountNone(amplification, IsDraw);
    assert tail == [tail[0]] + [tail[1]];
    CountConcat([tail[0]], [tail[1]], IsDraw);
  }

  /** Encoding switches vertex amplification on once for more than one view,
      with view i mapped to viewport i and render-target layer i, and not at
      all for a single view. */
  lemma {:induction false} EncodeAmplifiesOnlyStereo(d: Drawable, uniformBufferOffset: nat)
    ensures Count(EncodeEvents(d, uniformBufferOffset), IsAmplification) == if |d.views| > 1 then 1 else 0
    ensures forall e | e in EncodeEvents(d, uniformBufferOffset) && e.SetVertexAmplificationCount? ::
              && e.count == |d.views|
              && |e.mappings| == |d.views|
              && forall i :: 0 <= i < |e.mappings| ==> e.mappings[i] == ViewMapping(i, i)
  {
    var head := [ PushDebugGroup("Draw Skybox"), SetCullMode(CullFront), SetRenderPipelineState,
                  SetDepthStencilState, SetVertexBuffer(SkyboxVertexBuffer, 0, MeshPositions),
                  SetVertexBuffer(DynamicUniformBuffer, uniformBufferOffset, UniformsIndex),
                  SetFragmentTexture(ColorTexture), SetViewports(Viewports(d.views)) ];
    var amplification := AmplificationEvents(d.views);
    var tail := [DrawPrimitives(Triangle, 0, SkyboxVertexCount), PopDebugGroup];
    assert EncodeEvents(d, uniformBufferOffset) == head + amplification + tail;
    CountConcat(head + amplification, tail, IsAmplification);
    CountConcat(head, amplification, IsAmplification);
    CountNone(head, IsAmplification);
    CountNone(tail, IsAmplification);
  }

  /** A command recorded on the render encoder. */
  predicate IsEncoderCommand(e: Event)
  {
    || e.PushDebugGroup? || e.SetCullMode? || e.SetRenderPipelineState? || e.SetDepthStencilState?
    || e.SetVertexBuffer? || e.SetFragmentTexture? || e.SetViewports?
    || e.SetVertexAmplificationCount? || e.DrawPrimitives? || e.PopDebugGroup?
  }

  lemma EncodeEventsAreEncoderCommands(d: Drawable, uniformBufferOffset: nat)
    ensures forall e | e in EncodeEvents(d, uniformBufferOffset) :: IsEncoderCommand(e)
  {
  }

  /** Every event after the encoder is created, split into the encoded
      commands and the closing steps. */
  function ClosingEvents(renderEncoderAvailable: bool): seq<Event>
  {
    if renderEncoderAvailable then [EndEncoding, EncodePresent, Commit, EndSubmission]
    else [Fatal(RenderEncoderUnavailable)]
  }

  lemma SubmissionShape(d: Drawable, deviceAnchor: Option<Matrix>, blocked: bool,
                        uniformBufferOffset: nat, pass: RenderPassDescriptor,
                        renderEncoderAvailable: bool)
    ensures SubmissionEvents(d, deviceAnchor, blocked, uniformBufferOffset, pass, renderEncoderAvailable)
         == (if blocked then [GpuCompleted] else [])
            + [SemaphoreWait, StartSubmission]
            + [QueryDeviceAnchor(d.presentationTime), SetDeviceAnchor(deviceAnchor), AddCompletedHandler, MakeRenderCommandEncoder(pass)]
            + (if renderEncoderAvailable then EncodeEvents(d, uniformBufferOffset) else [])
            + ClosingEvents(renderEncoderAvailable)
  {
  }

  /** The submission events split at the semaphore wait: what comes after
      `startSubmission` is neither a wait, a `startSubmission` nor a completion. */
  lemma SubmissionSplit(d: Drawable, deviceAnchor: Option<Matrix>, blocked: bool,
                        uniformBufferOffset: nat, pass: RenderPassDescriptor,
                        renderEncoderAvailable: bool)
    returns (rest: seq<Event>)
    ensures SubmissionEvents(d, deviceAnchor, blocked, uniformBufferOffset, pass, renderEncoderAvailable)
         == (if blocked then [GpuCompleted] else []) + [SemaphoreWait, StartSubmission] + rest
    ensures forall e | e in rest :: !e.SemaphoreWait? && !e.StartSubmission? && !e.GpuCompleted?
  {
    rest := [QueryDeviceAnchor(d.presentationTime), SetDeviceAnchor(deviceAnchor), AddCompletedHandler, MakeRenderCommandEncoder(pass)]
            + (if renderEncoderAvailable then EncodeEvents(d, uniformBufferOffset) else [])
            + ClosingEvents(renderEncoderAvailable);
    SubmissionShape(d, deviceAnchor, blocked, uniformBufferOffset, pass, renderEncoderAvailable);
    EncodeEventsAreEncoderCommands(d, uniformBufferOffset);
  }

  /** The semaphore wait comes before `startSubmission`, immediately, and each
      happens once; a completion is awaited first exactly when no slot was free. */
  lemma {:induction false} WaitBeforeSubmission(d: Drawable, deviceAnchor: Option<Matrix>, blocked: bool,
                                                uniformBufferOffset: nat, pass: RenderPassDescriptor,
                                                renderEncoderAvailable: bool)
    ensures var s := SubmissionEvents(d, deviceAnchor, blocked, uniformBufferOffset, pass, renderEncoderAvailable);
            var k := if blocked then 1 else 0;
            && |s| > k + 1
            && s[k] == SemaphoreWait && s[k + 1] == StartSubmission
            && Count(s, IsSemaphoreWait) == 1
            && Count(s, IsStartSubmission) == 1
            && (GpuCompleted in s <==> blocked)
  {
    var completion: seq<Event> := if blocked then [GpuCompleted] else [];
    var rest := SubmissionSplit(d, deviceAnchor, blocked, uniformBufferOffset, pass, renderEncoderAvailable);
    CountOnceBetween(completion, SemaphoreWait, StartSubmission, rest, IsSemaphoreWait);
    CountOnceBetween(completion, SemaphoreWait, StartSubmission, rest, IsStartSubmission);
  }

  /** Counting through `before + [x, y] + after` when exactly one of x, y satisfies p. */
  lemma CountOnceBetween(before: seq<Event>, x: Event, y: Event, after: seq<Event>, p: Event -> bool)
    requires p(x) != p(y)
    requires forall e | e in before :: !p(e)
    requires forall e | e in after :: !p(e)
    ensures Count(before + [x, y] + after, p) == 1
  {
    CountNone(before, p);
    CountNone(after, p);
    assert [x, y] == [x] + [y];
    CountConcat([x], [y], p);
    CountConcat(before + [x, y], after, p);
    CountConcat(before, [x, y], p);
  }

  /** A step that closes the frame: end of encoding, present, commit, end of submission. */
  predicate IsClosingStep(e: Event)
  {
    e.EndEncoding? || e.EncodePresent? || e.Commit? || e.EndSubmission?
  }

  /** The submission events split around the encoded commands. */
  lemma SubmissionSplitAtEncoder(d: Drawable, deviceAnchor: Option<Matrix>, blocked: bool,
                                 uniformBufferOffset: nat, pass: RenderPassDescriptor,
                                 renderEncoderAvailable: bool)
    returns (front: seq<Event>)
    ensures SubmissionEvents(d, deviceAnchor, blocked, uniformBufferOffset, pass, renderEncoderAvailable)
         == front + (if renderEncoderAvailable then EncodeEvents(d, uniformBufferOffset) else []) + ClosingEvents(renderEncoderAvailable)
    ensures forall e | e in front :: !IsEncoderCommand(e) && !IsClosingStep(e) && !IsLoopEvent(e)
  {
    front := (if blocked then [GpuCompleted] else [])
             + [SemaphoreWait, StartSubmission]
             + [QueryDeviceAnchor(d.presentationTime), SetDeviceAnchor(deviceAnchor), AddCompletedHandler, MakeRenderCommandEncoder(pass)];
    SubmissionShape(d, deviceAnchor, blocked, uniformBufferOffset, pass, renderEncoderAvailable);
  }

  /** A frame that gets its encoder issues exactly one draw, the 36-vertex
      triangle list from vertex 0, and amplifies vertices once exactly when
      there is more than one view; a frame whose encoder is missing draws nothing. */
  lemma {:induction false} SubmissionDrawsOnce(d: Drawable, deviceAnchor: Option<Matrix>, blocked: bool,
                                               uniformBufferOffset: nat, pass: RenderPassDescriptor,
                                               renderEncoderAvailable: bool)
    ensures var s := SubmissionEvents(d, deviceAnchor, blocked, uniformBufferOffset, pass, renderEncoderAvailable);
            && Count(s, IsDraw) == (if renderEncoderAvailable then 1 else 0)
            && (renderEncoderAvailable ==> DrawPrimitives(Triangle, 0, SkyboxVertexCount) in s)
            && Count(s, IsAmplification) == (if renderEncoderAvailable && |d.views| > 1 then 1 else 0)
  {
    var front := SubmissionSplitAtEncoder(d, deviceAnchor, blocked, uniformBufferOffset, pass, renderEncoderAvailable);
    var encoded := if renderEncoderAvailable then EncodeEvents(d, uniformBufferOffset) else [];
    var closing := ClosingEvents(renderEncoderAvailable);
    EncodeDrawsOnce(d, uniformBufferOffset);
    EncodeAmplifiesOnlyStereo(d, uniformBufferOffset);
    CountConcat(front + encoded, closing, IsDraw);
    CountConcat(front, encoded, IsDraw);
    CountConcat(front + encoded, closing, IsAmplification);
    CountConcat(front, encoded, IsAmplification);
    CountNone(front, IsDraw);
    CountNone(front, IsAmplification);
    CountNone(closing, IsDraw);
    CountNone(closing, IsAmplification);
    CountNone([], IsDraw);
    CountNone([], IsAmplification);
  }

  /** Counting through a sequence of four events. */
  lemma CountFour(a: Event, b: Event, c: Event, d: Event, p: Event -> bool)
    ensures Count([a, b, c, d], p)
         == (if p(a) then 1 else 0) + (if p(b) then 1 else 0) + (if p(c) then 1 else 0) + (if p(d) then 1 else 0)
  {
    assert [a, b, c, d] == [a] + ([b] + ([c] + [d]));
    CountConcat([c], [d], p);
    CountConcat([b], [c] + [d], p);
    CountConcat([a], [b] + ([c] + [d]), p);
  }

  /** With an encoder, the frame ends by ending the encoding, presenting,
      committing and ending the submission, in that order and once each;
      without one it ends in a fatalError and never commits. */
  lemma {:induction false} SubmissionEndsInOrder(d: Drawable, deviceAnchor: Option<Matrix>, blocked: bool,
                                                 uniformBufferOffset: nat, pass: RenderPassDescriptor,
                                                 renderEncoderAvailable: bool)
    ensures var s := SubmissionEvents(d, deviceAnchor, blocked, uniformBufferOffset, pass, renderEncoderAvailable);
            && (renderEncoderAvailable ==>
                  && |s| >= 4
                  && s[|s| - 4..] == [EndEncoding, EncodePresent, Commit, EndSubmission]
                  && Count(s, IsEndEncoding) == 1 && Count(s, IsPresent) == 1
                  && Count(s, IsCommit) == 1 && Count(s, IsEndSubmission) == 1)
            && (!renderEncoderAvailable ==>
                  && s[|s| - 1] == Fatal(RenderEncoderUnavailable)
                  && Count(s, IsCommit) == 0 && Count(s, IsEndSubmission) == 0)
  {
    var body := ClosingSplit(d, deviceAnchor, blocked, uniformBufferOffset, pass, renderEncoderAvailable);
    var closing := ClosingEvents(renderEncoderAvailable);
    if renderEncoderAvailable {
      assert closing[|closing| - 4..] == closing;
      ClosingCount(body, closing, IsEndEncoding);
      ClosingCount(body, closing, IsPresent);
      ClosingCount(body, closing, IsCommit);
      ClosingCount(body, closing, IsEndSubmission);
      CountFour(EndEncoding, EncodePresent, Commit, EndSubmission, IsEndEncoding);
      CountFour(EndEncoding, EncodePresent, Commit, EndSubmission, IsPresent);
      CountFour(EndEncoding, EncodePresent, Commit, EndSubmission, IsCommit);
      CountFour(EndEncoding, EncodePresent, Commit, EndSubmission, IsEndSubmission);
    } else {
      ClosingCount(body, closing, IsCommit);
      ClosingCount(body, closing, IsEndSubmission);
      CountNone(closing, IsCommit);
      CountNone(closing, IsEndSubmission);
    }
  }

  /** A closing-step count over a submission is the count over its closing events. */
  lemma ClosingCount(body: seq<Event>, closing: seq<Event>, p: Event -> bool)
    requires forall e | e in body :: !IsClosingStep(e)
    requires forall e :: p(e) ==> IsClosingStep(e)
    ensures Count(body + closing, p) == Count(closing, p)
  {
    CountNone(body, p);
    CountConcat(body, closing, p);
  }

  /** Everything before the closing steps is not a closing step. */
  lemma ClosingSplit(d: Drawable, deviceAnchor: Option<Matrix>, blocked: bool,
                     uniformBufferOffset: nat, pass: RenderPassDescriptor,
                     renderEncoderAvailable: bool)
    returns (body: seq<Event>)
    ensures SubmissionEvents(d, deviceAnchor, blocked, uniformBufferOffset, pass, renderEncoderAvailable)
         == body + ClosingEvents(renderEncoderAvailable)
    ensures forall e | e in body :: !IsClosingStep(e)
  {
    var front := SubmissionSplitAtEncoder(d, deviceAnchor, blocked, uniformBufferOffset, pass, renderEncoderAvailable);
    EncodeEventsAreEncoderCommands(d, uniformBufferOffset);
    body := front + (if renderEncoderAvailable then EncodeEvents(d, uniformBufferOffset) else []);
  }

  /** No event of a submission belongs to the loop level. */
  lemma SubmissionHasNoLoopEvents(d: Drawable, deviceAnchor: Option<Matrix>, blocked: bool,
                                  uniformBufferOffset: nat, pass: RenderPassDescriptor,
                                  renderEncoderAvailable: bool)
    ensures forall e | e in SubmissionEvents(d, deviceAnchor, blocked, uniformBufferOffset, pass, renderEncoderAvailable) :: !IsLoopEvent(e)
  {
    var front := SubmissionSplitAtEncoder(d, deviceAnchor, blocked, uniformBufferOffset, pass, renderEncoderAvailable);
    EncodeEventsAreEncoderCommands(d, uniformBufferOffset);
  }

  /** The prologue holds no submission step and no encoder command, and its
      only loop-level event is the frame query at its head. */
  lemma PrologueShape(inputs: FrameInputs)
    returns (rest: seq<Event>)
    ensures PrologueEvents(inputs) == [QueryNextFrame] + rest
    ensures forall e | e in rest ::
              && !IsEncoderCommand(e) && !IsClosingStep(e) && !IsLoopEvent(e)
              && !e.SemaphoreWait? && !e.StartSubmission?
  {
    rest := PrologueEvents(inputs)[1..];
    assert PrologueEvents(inputs) == [QueryNextFrame] + rest;
  }

  /** At the loop's level a frame is just its frame query: the notifications
      and the pause wait are the loop's own. */
  lemma {:induction false} FrameLoopView(inputs: FrameInputs, blocked: bool, uniformBufferOffset: nat, pass: RenderPassDescriptor)
    ensures LoopView(FrameEvents(inputs, blocked, uniformBufferOffset, pass)) == [QueryNextFrame]
  {
    var rest := PrologueShape(inputs);
    var submission: seq<Event> := [];
    if Proceeds(inputs) {
      submission := SubmissionEvents(DrawableOf(inputs), inputs.deviceAnchor, blocked, uniformBufferOffset, pass,
                                     inputs.renderEncoderAvailable);
      SubmissionHasNoLoopEvents(DrawableOf(inputs), inputs.deviceAnchor, blocked, uniformBufferOffset, pass,
                                inputs.renderEncoderAvailable);
    }
    if Proceeds(inputs) {
      assert FrameEvents(inputs, blocked, uniformBufferOffset, pass) == PrologueEvents(inputs) + submission;
    } else {
      assert FrameEvents(inputs, blocked, uniformBufferOffset, pass) == PrologueEvents(inputs) + [];
    }
    ConcatAssociates([QueryNextFrame], rest, submission);
    FilterNone(rest + submission, IsLoopEvent);
    FilterConcat([QueryNextFrame], rest + submission, IsLoopEvent);
  }

  /** A frame waits on the semaphore exactly when it gets past its early
      returns, and draws and commits exactly when it is submitted. */
  lemma {:induction false} CommitIffSubmitted(inputs: FrameInputs, blocked: bool, uniformBufferOffset: nat, pass: RenderPassDescriptor)
    ensures var s := FrameEvents(inputs, blocked, uniformBufferOffset, pass);
            && Count(s, IsSemaphoreWait) == (if Proceeds(inputs) then 1 else 0)
            && Count(s, IsCommit) == (if OutcomeOf(inputs) == Submitted then 1 else 0)
            && Count(s, IsDraw) == (if OutcomeOf(inputs) == Submitted then 1 else 0)
  {
    var rest := PrologueShape(inputs);
    var prologue := PrologueEvents(inputs);
    assert forall e | e in prologue :: !e.SemaphoreWait? && !e.Commit? && !e.DrawPrimitives?;
    CountNone(prologue, IsSemaphoreWait);
    CountNone(prologue, IsCommit);
    CountNone(prologue, IsDraw);
    if Proceeds(inputs) {
      var d := DrawableOf(inputs);
      var submission := SubmissionEvents(d, inputs.deviceAnchor, blocked, uniformBufferOffset, pass, inputs.renderEncoderAvailable);
      WaitBeforeSubmission(d, inputs.deviceAnchor, blocked, uniformBufferOffset, pass, inputs.renderEncoderAvailable);
      SubmissionEndsInOrder(d, inputs.deviceAnchor, blocked, uniformBufferOffset, pass, inputs.renderEncoderAvailable);
      SubmissionDrawsOnce(d, inputs.deviceAnchor, blocked, uniformBufferOffset, pass, inputs.renderEncoderAvailable);
      CountConcat(prologue, submission, IsSemaphoreWait);
      CountConcat(prologue, submission, IsCommit);
      CountConcat(prologue, submission, IsDraw);
    } else {
      assert FrameEvents(inputs, blocked, uniformBufferOffset, pass) == prologue;
    }
  }

  /** The trace of one `renderFrame` call, given the render-pass descriptor it
      handed to the command buffer when it got that far. */
  function FrameTrace(inputs: FrameInputs, blocked: bool, uniformBufferOffset: nat,
                      pass: Option<RenderPassDescriptor>): seq<Event>
  {
    if pass.Some? then FrameEvents(inputs, blocked, uniformBufferOffset, pass.value) else PrologueEvents(inputs)
  }

  /** Whatever its outcome, one frame shows at the loop's level as its frame
      query alone; it waits on the semaphore once exactly when it gets past
      its early returns, and draws and commits once exactly when it is
      submitted. */
  lemma FrameTraceView(inputs: FrameInputs, blocked: bool, uniformBufferOffset: nat,
                       pass: Option<RenderPassDescriptor>)
    requires pass.Some? <==> Proceeds(inputs)
    ensures var s := FrameTrace(inputs, blocked, uniformBufferOffset, pass);
            && LoopView(s) == [QueryNextFrame]
            && Count(s, IsSemaphoreWait) == (if Proceeds(inputs) then 1 else 0)
            && Count(s, IsCommit) == (if OutcomeOf(inputs) == Submitted then 1 else 0)
            && Count(s, IsDraw) == (if OutcomeOf(inputs) == Submitted then 1 else 0)
  {
    if pass.Some? {
      FrameLoopView(inputs, blocked, uniformBufferOffset, pass.value);
      CommitIffSubmitted(inputs, blocked, uniformBufferOffset, pass.value);
    } else {
      var rest := PrologueShape(inputs);
      FilterNone(rest, IsLoopEvent);
      FilterConcat([QueryNextFrame], rest, IsLoopEvent);
      var prologue := PrologueEvents(inputs);
      assert forall e | e in prologue :: !e.SemaphoreWait? && !e.Commit? && !e.DrawPrimitives?;
      CountNone(prologue, IsSemaphoreWait);
      CountNone(prologue, IsCommit);
      CountNone(prologue, IsDraw);
    }
  }
}

=== FILE: graphics.dfy ===
/**
 * Opaque stand-ins for the Metal, CompositorServices and simd values the
 * renderer handles. Nothing here computes pixels or matrix entries: a value
 * records only what the renderer's control flow reads from it or sets on it.
 */
module Graphics {
  import opened Wrappers

  /** A simd float4x4, kept symbolic: the model records how a matrix is
      formed (a product, an inverse) and never computes its entries. */
  datatype Matrix =
    | Identity                          // matrix_identity_float4x4
    | Unwritten                         // mapped memory nobody has written yet
    | Supplied(id: nat)                 // a matrix handed over by the compositor or the tracker
    | Product(left: Matrix, right: Matrix)
    | Inverse(m: Matrix)

  /** A LayerRenderer.Clock instant; its conversion to seconds is left out. */
  datatype Instant = Instant(nanoseconds: int)

  datatype PixelFormat = PixelFormat(raw: nat)
  datatype TextureType = Type2D | Type2DArray | Type2DMultisampleArray
  datatype TextureUsage = ShaderRead | RenderTargetUsage
  datatype StorageMode = Shared | Private | Memoryless

  /** The fields of an MTLTextureDescriptor that the renderer reads or sets. */
  datatype TextureDescriptor = TextureDescriptor(
    textureType: TextureType,
    pixelFormat: PixelFormat,
    width: nat,
    height: nat,
    mipmapped: bool,
    usage: TextureUsage,
    storageMode: StorageMode,
    sampleCount: nat,
    arrayLength: nat)

  /** MTLTextureDescriptor.texture2DDescriptor(pixelFormat:width:height:mipmapped:)
      with the defaults Metal gives the fields it does not take. */
  function Texture2DDescriptor(pixelFormat: PixelFormat, width: nat, height: nat, mipmapped: bool): TextureDescriptor
  {
    TextureDescriptor(Type2D, pixelFormat, width, height, mipmapped, ShaderRead, Shared, 1, 1)
  }

  /** An MTLTexture. Its properties never change after creation, so a texture
      is an object with constant fields: `new Texture(d)` is
      `device.makeTexture(descriptor: d)`, and reusing a texture means handing
      back the same object. */
  class Texture {
    const descriptor: TextureDescriptor

    constructor (descriptor: TextureDescriptor)
      ensures this.descriptor == descriptor
    {
      this.descriptor := descriptor;
    }
  }

  datatype Viewport = Viewport(id: nat)
  datatype RasterizationRateMap = RasterizationRateMap(id: nat)

  /** One view of a drawable: its transform, the projection
      `computeProjection(viewIndex:)` returns for it, and its texture-map viewport. */
  datatype View = View(transform: Matrix, projection: Matrix, viewport: Viewport)

  /** A LayerRenderer.Drawable as the renderer sees it. */
  datatype Drawable = Drawable(
    colorTextures: seq<Texture>,
    depthTextures: seq<Texture>,
    views: seq<View>,
    rasterizationRateMaps: seq<RasterizationRateMap>,
    presentationTime: Instant)

  /** What the renderer takes for granted of every drawable: it reads
      `colorTextures[0]`, `depthTextures[0]` and `views[0]` without checking. */
  predicate WellFormed(d: Drawable)
  {
    |d.colorTextures| >= 1 && |d.depthTextures| >= 1 && |d.views| >= 1
  }

  /** LayerRenderer.Configuration.layout. */
  datatype LayerLayout = DedicatedLayout | SharedLayout | LayeredLayout

  datatype LoadAction = LoadDontCare | Load | Clear
  datatype StoreAction = StoreDontCare | Store | MultisampleResolve
  datatype ClearColor = ClearColor(red: real, green: real, blue: real, alpha: real)

  /** A colour or depth attachment of an MTLRenderPassDescriptor. */
  datatype Attachment = Attachment(
    texture: Texture,
    resolveTexture: Option<Texture>,
    loadAction: LoadAction,
    storeAction: StoreAction)

  /** The MTLRenderPassDescriptor fields the renderer sets; an unset
      renderTargetArrayLength is None. */
  datatype RenderPassDescriptor = RenderPassDescriptor(
    colorAttachment: Attachment,
    clearColor: ClearColor,
    depthAttachment: Attachment,
    clearDepth: real,
    rasterizationRateMap: Option<RasterizationRateMap>,
    renderTargetArrayLength: Option<nat>)

  datatype CompareFunction = Never | Less | Equal | LessEqual | Greater | NotEqual | GreaterEqual | Always

  /** The depth-stencil state the renderer builds once. */
  datatype DepthStencilDescriptor = DepthStencilDescriptor(depthCompareFunction: CompareFunction, isDepthWriteEnabled: bool)

  /** Whether a fragment at depth `fragment` passes the depth test against the stored `stored`. */
  predicate DepthTestPasses(f: CompareFunction, fragment: real, stored: real)
  {
    match f
    case Never => false
    case Less => fragment < stored
    case Equal => fragment == stored
    case LessEqual => fragment <= stored
    case Greater => fragment > stored
    case NotEqual => fragment != stored
    case GreaterEqual => fragment >= stored
    case Always => true
  }
}

=== FILE: loop_plan.dfy ===
/**
 * The render loop as a pure state machine over the polled layer states:
 * which notifications it posts, when it waits for the layer to run again,
 * and when it starts a frame.
 */
module LoopPlan {
  import opened Events

  /** The loop-level events of one iteration that sees `layer` while the app
      model's immersive-space state is `app`. An invalidated layer posts
      `.closed` (and the loop returns); a paused one posts `.inTransition` and
      waits; a running one posts `.open` unless already open, then runs a frame. */
  function StepEvents(layer: LayerState, app: ImmersiveSpaceState): seq<Event>
  {
    match layer
    case Invalidated => [Notify(Closed)]
    case Paused => [Notify(InTransition), WaitUntilRunning]
    case Running => OpenNotice(app) + [QueryNextFrame]
  }

  /** The `.open` notice a running iteration posts unless the app is already open. */
  function OpenNotice(app: ImmersiveSpaceState): seq<Event>
  {
    if app != Open then [Notify(Open)] else []
  }

  /** The immersive-space state after an iteration that sees `layer`. */
  function NextAppState(layer: LayerState): ImmersiveSpaceState
  {
    match layer
    case Invalidated => Closed
    case Paused => InTransition
    case Running => Open
  }

  /** The immersive-space state after iterations that saw `states`, starting from `app`. */
  function AppStateAfter(states: seq<LayerState>, app: ImmersiveSpaceState): ImmersiveSpaceState
  {
    if |states| == 0 then app else NextAppState(states[|states| - 1])
  }

  /** The loop-level events of iterations that saw `states`, in order. */
  function Plan(states: seq<LayerState>, app: ImmersiveSpaceState): seq<Event>
  {
    if |states| == 0 then []
    else
      var earlier := states[..|states| - 1];
      Plan(earlier, app) + StepEvents(states[|states| - 1], AppStateAfter(earlier, app))
  }

  /** Iterations that have not yet seen an invalidated layer. */
  predicate NoInvalidated(states: seq<LayerState>)
  {
    forall i :: 0 <= i < |states| ==> states[i] != Invalidated
  }

  /** How many iterations saw a running layer. */
  function RunningCount(states: seq<LayerState>): nat
  {
    if |states| == 0 then 0
    else RunningCount(states[..|states| - 1]) + (if states[|states| - 1] == Running then 1 else 0)
  }

  /** Only an invalidated layer posts `.closed`. */
  lemma {:induction false} NoClosedBeforeInvalidated(states: seq<LayerState>, app: ImmersiveSpaceState)
    requires NoInvalidated(states)
    ensures Count(Plan(states, app), IsClosedNotice) == 0
  {
    if |states| > 0 {
      var earlier := states[..|states| - 1];
      NoClosedBeforeInvalidated(earlier, app);
      var step := StepEvents(states[|states| - 1], AppStateAfter(earlier, app));
      CountNone(step, IsClosedNotice);
      CountConcat(Plan(earlier, app), step, IsClosedNotice);
    }
  }

  /** A run that ends at the first invalidated layer posts `.closed` exactly
      once, as its last event. */
  lemma {:induction false} ClosedExactlyOnce(states: seq<LayerState>, app: ImmersiveSpaceState)
    requires |states| > 0 && states[|states| - 1] == Invalidated
    requires NoInvalidated(states[..|states| - 1])
    ensures Count(Plan(states, app), IsClosedNotice) == 1
    ensures var plan := Plan(states, app); |plan| > 0 && plan[|plan| - 1] == Notify(Closed)
  {
    var earlier := states[..|states| - 1];
    NoClosedBeforeInvalidated(earlier, app);
    CountConcat(Plan(earlier, app), [Notify(Closed)], IsClosedNotice);
  }

  /** Frames are started only by iterations that saw a running layer, one each. */
  lemma {:induction false} FramesOnlyWhenRunning(states: seq<LayerState>, app: ImmersiveSpaceState)
    ensures Count(Plan(states, app), IsFrameStart) == RunningCount(states)
  {
    if |states| > 0 {
      var earlier := states[..|states| - 1];
      FramesOnlyWhenRunning(earlier, app);
      var step := StepEvents(states[|states| - 1], AppStateAfter(earlier, app));
      CountConcat(Plan(earlier, app), step, IsFrameStart);
      match states[|states| - 1]
      case Running =>
        var notice: seq<Event> := if AppStateAfter(earlier, app) != Open then [Notify(Open)] else [];
        CountNone(notice, IsFrameStart);
        CountConcat(notice, [QueryNextFrame], IsFrameStart);
      case Paused =>
        CountNone(step, IsFrameStart);
      case Invalidated =>
        CountNone(step, IsFrameStart);
    }
  }

  /** A running iteration posts `.open` exactly when the state was not open already. */
  lemma {:induction false} OpenOnlyOnChange(app: ImmersiveSpaceState)
    ensures Count(StepEvents(Running, app), IsOpenNotice) == if app == Open then 0 else 1
  {
    if app == Open {
      CountNone(StepEvents(Running, app), IsOpenNotice);
    } else {
      CountConcat([Notify(Open)], [QueryNextFrame], IsOpenNotice);
    }
  }

  /** Running, pausing, running again and being invalidated: one frame before
      the pause, `.inTransition` and a wait during it, `.open` and one frame
      after it, and `.closed` at the end. */
  lemma PauseAndResume(app: ImmersiveSpaceState)
    ensures Plan([Running, Paused, Running, Invalidated], app)
         == (if app != Open then [Notify(Open)] else [])
            + [ QueryNextFrame,
                Notify(InTransition), WaitUntilRunning,
                Notify(Open), QueryNextFrame,
                Notify(Closed) ]
  {
    var s := [Running, Paused, Running, Invalidated];
    var opening: seq<Event> := if app != Open then [Notify(Open)] else [];
    assert s[..3] == [Running, Paused, Running];
    assert s[..3][..2] == [Running, Paused];
    assert s[..3][..2][..1] == [Running];
    assert [Running][..0] == [];
    assert Plan([Running], app) == opening + [QueryNextFrame];
    assert Plan([Running, Paused], app) == opening + [QueryNextFrame, Notify(InTransition), WaitUntilRunning];
    assert Plan([Running, Paused, Running], app)
        == opening + [QueryNextFrame, Notify(InTransition), WaitUntilRunning, Notify(Open), QueryNextFrame];
  }
}

=== FILE: skybox.dfy ===
/**
 * The `Renderer` actor: its uniform ring, its transient render-target cache,
 * the in-flight limiter, and the two entry points `renderFrame` and
 * `renderLoop`. Every effect on the compositor, the GPU and the app model is
 * appended to `trace`; the methods are proved to produce exactly the event
 * sequences of FramePlan and LoopPlan.
 */
module Skybox {
  import opened Wrappers
  import opened Graphics
  import opened Events
  import opened UniformRing
  import opened TargetCache
  import opened FramePlan
  import opened LoopPlan

  /** The sample count chosen at start-up: four-sample MSAA when the device
      supports both 32-bit MSAA and four-sample textures, one otherwise. */
  function RasterSampleCount(supports32BitMSAA: bool, supportsTextureSampleCount4: bool): (count: nat)
    ensures count == 4 <==> supports32BitMSAA && supportsTextureSampleCount4
    ensures count != 4 ==> count == 1
  {
    if supports32BitMSAA && supportsTextureSampleCount4 then 4 else 1
  }

  /** A texture fit to be a cached memoryless target of this renderer. */
  predicate TransientTarget(t: Texture, sampleCount: nat)
  {
    && t.descriptor.textureType == Type2DMultisampleArray
    && t.descriptor.usage == RenderTargetUsage
    && t.descriptor.storageMode == Memoryless
    && t.descriptor.sampleCount == sampleCount
    && !t.descriptor.mipmapped
  }

  /** The pair has the resolution of the drawable's first colour and depth textures. */
  predicate SizedFor(targets: TargetPair, d: Drawable)
    requires WellFormed(d)
  {
    && targets.color.descriptor.width == d.colorTextures[0].descriptor.width
    && targets.color.descriptor.height == d.colorTextures[0].descriptor.height
    && targets.depth.descriptor.width == d.depthTextures[0].descriptor.width
    && targets.depth.descriptor.height == d.depthTextures[0].descriptor.height
  }

  /** The uniforms of one region after updateGameState: view 0 always, view 1
      only when the drawable has more than one view, otherwise kept. */
  function WriteUniforms(region: UniformsArray, d: Drawable, deviceAnchor: Option<Matrix>): (written: UniformsArray)
    requires WellFormed(d)
    ensures written.uniforms0 == ViewUniforms(d, deviceAnchor, 0)
    ensures |d.views| > 1 ==> written.uniforms1 == ViewUniforms(d, deviceAnchor, 1)
    ensures |d.views| <= 1 ==> written.uniforms1 == region.uniforms1
  {
    var first := region.(uniforms0 := ViewUniforms(d, deviceAnchor, 0));
    if |d.views| > 1 then first.(uniforms1 := ViewUniforms(d, deviceAnchor, 1)) else first
  }

  /** The cache moved its index on by one and put `targets` in that slot,
      leaving the others as they were. */
  predicate CacheAdvanced(before: seq<Option<TargetPair>>, beforeIndex: nat,
                          after: seq<Option<TargetPair>>, afterIndex: nat, targets: TargetPair)
  {
    && afterIndex == (beforeIndex + 1) % MaxBuffersInFlight
    && afterIndex < |before|
    && after == before[afterIndex := Some(targets)]
  }

  /** Both textures of the pair are what renderTarget answers for the
      drawable's first colour and depth textures and the slot's old entry. */
  twostate predicate ServedPair(new targets: TargetPair, d: Drawable, cached: Option<TargetPair>, sampleCount: nat)
    requires WellFormed(d)
  {
    && ServedFrom(targets.color, d.colorTextures[0], CachedColor(cached), sampleCount)
    && ServedFrom(targets.depth, d.depthTextures[0], CachedDepth(cached), sampleCount)
  }

  /** One pass of `renderLoop`: the layer state read by the invalidation
      check, the state read again by the pause check, and what the world
      answers to the frame the pass runs if it gets that far. */
  datatype Tick = Tick(firstRead: LayerState, secondRead: LayerState, inputs: FrameInputs)

  /** The branch a pass takes: it returns when the first read says
      invalidated, waits when the second read says paused, and otherwise runs
      a frame, also when the layer was invalidated between the two reads. */
  function Branch(tick: Tick): (layer: LayerState)
    ensures layer == Invalidated <==> tick.firstRead == Invalidated
    ensures layer == Paused <==> tick.firstRead != Invalidated && tick.secondRead == Paused
    ensures layer == Running <==> tick.firstRead != Invalidated && tick.secondRead != Paused
  {
    if tick.firstRead == Invalidated then Invalidated
    else if tick.secondRead == Paused then Paused
    else Running
  }

  /** A layer invalidated between the two reads goes unnoticed until the
      next pass: this one still runs a frame, and stops the loop only if the
      frame hits a fatalError. */
  lemma LateInvalidationRunsFrame(tick: Tick)
    requires tick.firstRead != Invalidated && tick.secondRead == Invalidated
    ensures Branch(tick) == Running
    ensures LoopStop(tick) == if OutcomeOf(tick.inputs).Crashed? then Some(FatalStop(OutcomeOf(tick.inputs).error)) else None
  {
  }

  /** The state each pass acts on, as the loop plan sees it. */
  function LayerStates(ticks: seq<Tick>): (states: seq<LayerState>)
    ensures |states| == |ticks|
    ensures forall i :: 0 <= i < |ticks| ==> states[i] == Branch(ticks[i])
  {
    seq(|ticks|, i requires 0 <= i < |ticks| => Branch(ticks[i]))
  }

  /** The renderer's frame state as values: the uniform ring, the target
      cache, and the in-flight limiter with the slots the GPU still holds. */
  datatype FrameState = FrameState(
    uniformBufferIndex: nat, uniformRegions: seq<UniformsArray>,
    memorylessTargetIndex: nat, memorylessTargets: seq<Option<TargetPair>>,
    semaphoreValue: nat, acquired: nat, outstanding: nat, inFlight: seq<nat>)

  /** The submissions still in flight once the semaphore wait returns: when
      no slot was free, the oldest one completed first. */
  function StillInFlight(inFlight: seq<nat>, blocked: bool): seq<nat>
  {
    if blocked && |inFlight| > 0 then inFlight[1..] else inFlight
  }

  /** What one renderFrame call does to the frame state. A frame that returns
      early changes nothing. A frame that proceeds moves the ring on to a slot
      no uncompleted submission holds, writes only that slot's uniforms,
      holds the slot in flight once it commits, and, with MSAA, moves the
      target cache on to the same slot and puts there a pair sized for the
      drawable. `pass` is the descriptor the frame submitted: none for an
      early return, otherwise the one built from the drawable, the new cache
      entry under MSAA and the layer's layout. */
  predicate FrameEffect(before: FrameState, after: FrameState, inputs: FrameInputs, sampleCount: nat,
                        layout: LayerLayout, pass: Option<RenderPassDescriptor>)
    requires InputsWellFormed(inputs)
  {
    if !Proceeds(inputs) then after == before && pass.None?
    else
      var slot := after.uniformBufferIndex;
      var msaa := sampleCount > 1;
      var held := StillInFlight(before.inFlight, before.semaphoreValue == 0);
      && before.uniformBufferIndex < MaxBuffersInFlight
      && slot == NextSlot(before.uniformBufferIndex)
      && slot < |before.uniformRegions|
      && after.uniformRegions == before.uniformRegions[slot :=
           WriteUniforms(before.uniformRegions[slot], DrawableOf(inputs), inputs.deviceAnchor)]
      && slot !in held
      && after.inFlight == held + (if inputs.renderEncoderAvailable then [slot] else [])
      && after.outstanding == |after.inFlight|
      && after.acquired == (if inputs.renderEncoderAvailable then 0 else 1)
      && (if msaa then
            && after.memorylessTargetIndex == slot
            && slot < |after.memorylessTargets|
            && after.memorylessTargets[slot].Some?
            && CacheAdvanced(before.memorylessTargets, before.memorylessTargetIndex,
                             after.memorylessTargets, slot, after.memorylessTargets[slot].value)
            && SizedFor(after.memorylessTargets[slot].value, DrawableOf(inputs))
            && pass == Some(PassDescriptor(DrawableOf(inputs), after.memorylessTargets[slot], layout))
          else
            && after.memorylessTargets == before.memorylessTargets
            && after.memorylessTargetIndex == before.memorylessTargetIndex
            && pass == Some(PassDescriptor(DrawableOf(inputs), None, layout)))
  }

  /** The events of one pass, given the semaphore state it starts in, the
      uniform offset it ends with and the descriptor of the frame it ran. */
  function IterationEvents(tick: Tick, app: ImmersiveSpaceState, blocked: bool, uniformBufferOffset: nat,
                           pass: Option<RenderPassDescriptor>): seq<Event>
  {
    if Branch(tick) == Running then OpenNotice(app) + FrameTrace(tick.inputs, blocked, uniformBufferOffset, pass)
    else StepEvents(Branch(tick), app)
  }

  /** One pass shows at the loop's level as its plan step, and it waits on the
      semaphore, draws or commits only when it runs a frame that gets that far. */
  lemma IterationView(tick: Tick, app: ImmersiveSpaceState, blocked: bool, uniformBufferOffset: nat,
                      pass: Option<RenderPassDescriptor>)
    requires Branch(tick) == Running ==> (pass.Some? <==> Proceeds(tick.inputs))
    ensures var step := IterationEvents(tick, app, blocked, uniformBufferOffset, pass);
            && LoopView(step) == StepEvents(Branch(tick), app)
            && Count(step, IsSemaphoreWait) == (if Branch(tick) == Running && Proceeds(tick.inputs) then 1 else 0)
            && Count(step, IsCommit) == (if Branch(tick) == Running && OutcomeOf(tick.inputs) == Submitted then 1 else 0)
            && Count(step, IsDraw) == (if Branch(tick) == Running && OutcomeOf(tick.inputs) == Submitted then 1 else 0)
  {
    var step := IterationEvents(tick, app, blocked, uniformBufferOffset, pass);
    if Branch(tick) == Running {
      var notice := OpenNotice(app);
      var frame := FrameTrace(tick.inputs, blocked, uniformBufferOffset, pass);
      FrameTraceView(tick.inputs, blocked, uniformBufferOffset, pass);
      AllLoopEvents(notice);
      FilterConcat(notice, frame, IsLoopEvent);
      CountNone(notice, IsSemaphoreWait);
      CountNone(notice, IsCommit);
      CountNone(notice, IsDraw);
      CountConcat(notice, frame, IsSemaphoreWait);
      CountConcat(notice, frame, IsCommit);
      CountConcat(notice, frame, IsDraw);
    } else {
      AllLoopEvents(step);
      CountNone(step, IsSemaphoreWait);
      CountNone(step, IsCommit);
      CountNone(step, IsDraw);
    }
  }

  /** How many of the passes run a frame that gets past its early returns:
      each waits on the semaphore and moves the uniform ring on once. */
  function ProceedingFrames(ticks: seq<Tick>): nat
  {
    if |ticks| == 0 then 0
    else ProceedingFrames(ticks[..|ticks| - 1])
         + (if Branch(ticks[|ticks| - 1]) == Running && Proceeds(ticks[|ticks| - 1].inputs) then 1 else 0)
  }

  /** How many of the passes run a frame that is submitted. */
  function SubmittedFrames(ticks: seq<Tick>): nat
  {
    if |ticks| == 0 then 0
    else SubmittedFrames(ticks[..|ticks| - 1])
         + (if Branch(ticks[|ticks| - 1]) == Running && OutcomeOf(ticks[|ticks| - 1].inputs) == Submitted then 1 else 0)
  }

  /** One more pass adds its own frame work to the counts. */
  lemma TickStep(ticks: seq<Tick>, n: nat)
    requires n < |ticks|
    ensures ProceedingFrames(ticks[..n + 1])
         == ProceedingFrames(ticks[..n]) + (if Branch(ticks[n]) == Running && Proceeds(ticks[n].inputs) then 1 else 0)
    ensures SubmittedFrames(ticks[..n + 1])
         == SubmittedFrames(ticks[..n]) + (if Branch(ticks[n]) == Running && OutcomeOf(ticks[n].inputs) == Submitted then 1 else 0)
  {
    assert ticks[..n + 1][..n] == ticks[..n];
  }

  /** Frame work happens only in running passes: no more frames are submitted
      than get past their early returns, and no more of those than passes
      that take the running branch. */
  lemma {:induction false} FrameWorkOnlyWhenRunning(ticks: seq<Tick>, n: nat)
    requires n <= |ticks|
    ensures SubmittedFrames(ticks[..n]) <= ProceedingFrames(ticks[..n]) <= RunningCount(LayerStates(ticks)[..n])
  {
    if n > 0 {
      FrameWorkOnlyWhenRunning(ticks, n - 1);
      TickStep(ticks, n - 1);
      assert LayerStates(ticks)[..n][..n - 1] == LayerStates(ticks)[..n - 1];
    }
  }

  /** Why `renderLoop` stopped: it returned on an invalidated layer, a frame
      hit a fatalError, or the model ran out of polled states. */
  datatype LoopExit = LayerInvalidated | FatalStop(error: FatalError) | TicksExhausted

  /** The three stages of SubmitFrame, one after the other, make up the
      submission sequence. */
  lemma SubmissionEventsSplit(d: Drawable, deviceAnchor: Option<Matrix>, blocked: bool,
                              uniformBufferOffset: nat, pass: RenderPassDescriptor, renderEncoderAvailable: bool,
                              start: seq<Event>, opening: seq<Event>, finish: seq<Event>)
    requires opening == start + (if blocked then [GpuCompleted] else []) + [SemaphoreWait]
                        + [StartSubmission, QueryDeviceAnchor(d.presentationTime),
                           SetDeviceAnchor(deviceAnchor), AddCompletedHandler]
    requires finish == opening + [MakeRenderCommandEncoder(pass)]
                       + (if renderEncoderAvailable then
                            EncodeEvents(d, uniformBufferOffset) + [EndEncoding, EncodePresent, Commit, EndSubmission]
                          else [Fatal(RenderEncoderUnavailable)])
    ensures finish == start + SubmissionEvents(d, deviceAnchor, blocked, uniformBufferOffset, pass, renderEncoderAvailable)
  {
  }

  /** A proceeding frame's trace is its prologue followed by its submission. */
  lemma FrameEventsSplit(inputs: FrameInputs, blocked: bool, uniformBufferOffset: nat, pass: RenderPassDescriptor,
                         start: seq<Event>, prologue: seq<Event>, finish: seq<Event>)
    requires Proceeds(inputs)
    requires prologue == start + PrologueEvents(inputs)
    requires finish == prologue + SubmissionEvents(DrawableOf(inputs), inputs.deviceAnchor, blocked,
                                                   uniformBufferOffset, pass, inputs.renderEncoderAvailable)
    ensures finish == start + FrameEvents(inputs, blocked, uniformBufferOffset, pass)
  {
    var submission := SubmissionEvents(DrawableOf(inputs), inputs.deviceAnchor, blocked,
                                       uniformBufferOffset, pass, inputs.renderEncoderAvailable);
    assert FrameEvents(inputs, blocked, uniformBufferOffset, pass) == PrologueEvents(inputs) + submission;
    ConcatAssociates(start, PrologueEvents(inputs), submission);
  }

  /** One more iteration extends the plan by one step. */
  lemma PlanStep(all: seq<LayerState>, n: nat, app: ImmersiveSpaceState)
    requires n < |all|
    ensures Plan(all[..n + 1], app) == Plan(all[..n], app) + StepEvents(all[n], AppStateAfter(all[..n], app))
    ensures AppStateAfter(all[..n + 1], app) == NextAppState(all[n])
  {
    assert all[..n + 1][..n] == all[..n];
  }

  /** What the first `n` passes over `ticks`, from app state `app`, leave in
      the trace (`added`): the loop-level events of the plan, one semaphore
      wait per frame that got past its early returns, one draw and one commit
      per frame submitted. */
  ghost predicate Recorded(ticks: seq<Tick>, n: nat, app: ImmersiveSpaceState, added: seq<Event>)
    requires n <= |ticks|
  {
    LoopView(added) == Plan(LayerStates(ticks)[..n], app) && Counted(ticks, n, added)
  }

  /** The frame-work counts of `Recorded`. */
  ghost predicate Counted(ticks: seq<Tick>, n: nat, added: seq<Event>)
    requires n <= |ticks|
  {
    && Count(added, IsSemaphoreWait) == ProceedingFrames(ticks[..n])
    && Count(added, IsCommit) == SubmittedFrames(ticks[..n])
    && Count(added, IsDraw) == SubmittedFrames(ticks[..n])
  }

  /** The counts after one more pass, given what that pass adds to each. */
  lemma CountsStep(ticks: seq<Tick>, n: nat, added: seq<Event>, step: seq<Event>)
    requires n < |ticks| && Counted(ticks, n, added)
    requires Count(step, IsSemaphoreWait) == (if Branch(ticks[n]) == Running && Proceeds(ticks[n].inputs) then 1 else 0)
    requires Count(step, IsCommit) == (if Branch(ticks[n]) == Running && OutcomeOf(ticks[n].inputs) == Submitted then 1 else 0)
    requires Count(step, IsDraw) == (if Branch(ticks[n]) == Running && OutcomeOf(ticks[n].inputs) == Submitted then 1 else 0)
    ensures Counted(ticks, n + 1, added + step)
  {
    TickStep(ticks, n);
    CountConcat(added, step, IsSemaphoreWait);
    CountConcat(added, step, IsCommit);
    CountConcat(added, step, IsDraw);
  }

  /** What one more pass adds to the loop's record: its loop-level events
      extend the plan, and its semaphore waits, draws and commits extend the counts. */
  lemma PassAccounting(ticks: seq<Tick>, n: nat, app: ImmersiveSpaceState, added: seq<Event>,
                       appBefore: ImmersiveSpaceState, blocked: bool, uniformBufferOffset: nat,
                       pass: Option<RenderPassDescriptor>)
    requires n < |ticks|
    requires Branch(ticks[n]) == Running ==> (pass.Some? <==> Proceeds(ticks[n].inputs))
    requires Recorded(ticks, n, app, added)
    requires appBefore == AppStateAfter(LayerStates(ticks)[..n], app)
    ensures Recorded(ticks, n + 1, app, added + IterationEvents(ticks[n], appBefore, blocked, uniformBufferOffset, pass))
    ensures NextAppState(Branch(ticks[n])) == AppStateAfter(LayerStates(ticks)[..n + 1], app)
  {
    var all := LayerStates(ticks);
    var step := IterationEvents(ticks[n], appBefore, blocked, uniformBufferOffset, pass);
    assert all[n] == Branch(ticks[n]);
    PlanStep(all, n, app);
    IterationView(ticks[n], appBefore, blocked, uniformBufferOffset, pass);
    FilterConcat(added, step, IsLoopEvent);
    CountsStep(ticks, n, added, step);
  }

  /** The ring slot after pass `n`: one advance more if that pass ran a frame
      that got past its early returns. */
  lemma IndexStep(ticks: seq<Tick>, n: nat, firstIndex: nat, before: nat, after: nat)
    requires n < |ticks| && firstIndex < MaxBuffersInFlight
    requires before == Advanced(firstIndex, ProceedingFrames(ticks[..n]))
    requires after == if Branch(ticks[n]) == Running && Proceeds(ticks[n].inputs) then NextSlot(before) else before
    ensures after == Advanced(firstIndex, ProceedingFrames(ticks[..n + 1]))
  {
    TickStep(ticks, n);
    if Branch(ticks[n]) == Running && Proceeds(ticks[n].inputs) {
      var k := ProceedingFrames(ticks[..n]);
      assert Advanced(firstIndex, k + 1) == NextSlot(Advanced(firstIndex, k));
    }
  }

  /** What one pass of renderLoop did, as `LoopIteration` proves it: from app
      state `app` and frame state `before` it appended exactly `step`, the
      events of its branch, and left the frame state `after`, unchanged
      unless it ran a frame and otherwise that frame's effect with the
      descriptor `pass`. The uniform offset the events carry is the one
      of the slot the pass leaves the ring at. */
  ghost predicate PassEffect(tick: Tick, app: ImmersiveSpaceState, before: FrameState, after: FrameState,
                             step: seq<Event>, pass: Option<RenderPassDescriptor>,
                             aligned: nat, sampleCount: nat, layout: LayerLayout)
  {
    && InputsWellFormed(tick.inputs)
    && step == IterationEvents(tick, app, before.semaphoreValue == 0, SlotOffset(aligned, after.uniformBufferIndex), pass)
    && (if Branch(tick) == Running then FrameEffect(before, after, tick.inputs, sampleCount, layout, pass)
        else after == before)
  }

  /** The record of the first `n` passes over `ticks` from app state `app`:
      pass `i` appended `steps[i]`, submitted `passes[i]` and took the frame
      state from `states[i]` to `states[i + 1]`. */
  ghost predicate PassesRecorded(ticks: seq<Tick>, n: nat, app: ImmersiveSpaceState, steps: seq<seq<Event>>,
                                 passes: seq<Option<RenderPassDescriptor>>, states: seq<FrameState>,
                                 aligned: nat, sampleCount: nat, layout: LayerLayout)
  {
    && n <= |ticks| && |steps| == n && |passes| == n && |states| == n + 1
    && forall i | 0 <= i < n ::
         PassEffect(ticks[i], AppStateAfter(LayerStates(ticks)[..i], app), states[i], states[i + 1],
                    steps[i], passes[i], aligned, sampleCount, layout)
  }

  /** The record of `n` passes and what pass `n` did make the record of
      `n + 1` passes, and the events of the longer record are those of the
      shorter one followed by the new pass's. */
  lemma RecordStep(ticks: seq<Tick>, n: nat, app: ImmersiveSpaceState, steps: seq<seq<Event>>,
                   passes: seq<Option<RenderPassDescriptor>>, states: seq<FrameState>,
                   aligned: nat, sampleCount: nat, layout: LayerLayout,
                   step: seq<Event>, pass: Option<RenderPassDescriptor>, after: FrameState)
    requires n < |ticks|
    requires PassesRecorded(ticks, n, app, steps, passes, states, aligned, sampleCount, layout)
    requires PassEffect(ticks[n], AppStateAfter(LayerStates(ticks)[..n], app), states[n], after,
                        step, pass, aligned, sampleCount, layout)
    ensures PassesRecorded(ticks, n + 1, app, steps + [step], passes + [pass], states + [after],
                           aligned, sampleCount, layout)
    ensures Flatten(steps + [step]) == Flatten(steps) + step
  {
    assert (steps + [step])[..n] == steps;
    var steps', passes', states' := steps + [step], passes + [pass], states + [after];
    forall i | 0 <= i < n + 1
      ensures PassEffect(ticks[i], AppStateAfter(LayerStates(ticks)[..i], app), states'[i], states'[i + 1],
                         steps'[i], passes'[i], aligned, sampleCount, layout)
    {
      if i < n {
        assert states'[i] == states[i] && states'[i + 1] == states[i + 1];
        assert steps'[i] == steps[i] && passes'[i] == passes[i];
      }
    }
  }

  /** Whether renderLoop stops after the iteration that polls `tick`, and why:
      it returns on an invalidated layer, and a running frame whose outcome is
      a fatalError ends the process. */
  function LoopStop(tick: Tick): (stop: Option<LoopExit>)
    ensures stop == Some(LayerInvalidated) <==> tick.firstRead == Invalidated
    ensures stop.Some? && stop.value.FatalStop? <==> Branch(tick) == Running && OutcomeOf(tick.inputs).Crashed?
    ensures stop.None? <==> tick.firstRead != Invalidated && !(Branch(tick) == Running && OutcomeOf(tick.inputs).Crashed?)
  {
    if tick.firstRead == Invalidated then Some(LayerInvalidated)
    else if Branch(tick) == Running && OutcomeOf(tick.inputs).Crashed? then Some(FatalStop(OutcomeOf(tick.inputs).error))
    else None
  }

  /** The index of the first tick whose iteration stops the loop, or |ticks|
      when none does. */
  function FirstStop(ticks: seq<Tick>): (k: nat)
    ensures k <= |ticks|
    ensures k < |ticks| ==> LoopStop(ticks[k]).Some?
  {
    if |ticks| == 0 then 0
    else if LoopStop(ticks[0]).Some? then 0
    else 1 + FirstStop(ticks[1..])
  }

  /** No tick before the first stopping one stops the loop. */
  lemma {:induction false} FirstStopIsFirst(ticks: seq<Tick>, i: nat)
    requires i < FirstStop(ticks)
    ensures LoopStop(ticks[i]).None?
  {
    if i > 0 {
      FirstStopIsFirst(ticks[1..], i - 1);
    }
  }

  /** How many iterations renderLoop runs on `ticks`: up to and including the
      first stopping one, or all of them. */
  function RunLength(ticks: seq<Tick>): (n: nat)
    ensures n <= |ticks|
  {
    if FirstStop(ticks) < |ticks| then FirstStop(ticks) + 1 else |ticks|
  }

  /** Why renderLoop ends on `ticks`. */
  function ExitOf(ticks: seq<Tick>): LoopExit
  {
    if FirstStop(ticks) < |ticks| then LoopStop(ticks[FirstStop(ticks)]).value else TicksExhausted
  }

  /** What the loop-level events of a finished renderLoop run amount to:
      `.closed` is posted once when the loop returned on an invalidated layer
      and never otherwise, and a frame is started once per running poll. */
  lemma {:induction false} LoopOutcome(ticks: seq<Tick>, app: ImmersiveSpaceState)
    ensures var plan := Plan(LayerStates(ticks)[..RunLength(ticks)], app);
            Count(plan, IsClosedNotice) == if ExitOf(ticks) == LayerInvalidated then 1 else 0
    ensures ExitOf(ticks) == LayerInvalidated ==>
              var plan := Plan(LayerStates(ticks)[..RunLength(ticks)], app);
              |plan| > 0 && plan[|plan| - 1] == Notify(Closed)
    ensures var states := LayerStates(ticks)[..RunLength(ticks)];
            Count(Plan(states, app), IsFrameStart) == RunningCount(states)
  {
    var k := FirstStop(ticks);
    var states := LayerStates(ticks)[..RunLength(ticks)];
    FramesOnlyWhenRunning(states, app);
    forall i | 0 <= i < k
      ensures Branch(ticks[i]) != Invalidated
    {
      FirstStopIsFirst(ticks, i);
    }
    if ExitOf(ticks) == LayerInvalidated {
      assert states[..|states| - 1] == LayerStates(ticks)[..k];
      assert NoInvalidated(states[..|states| - 1]);
      ClosedExactlyOnce(states, app);
    } else {
      assert NoInvalidated(states);
      NoClosedBeforeInvalidated(states, app);
    }
  }

  /** A trace made of loop-level events is its own loop view. */
  lemma {:induction false} AllLoopEvents(s: seq<Event>)
    requires forall e | e in s :: IsLoopEvent(e)
    ensures LoopView(s) == s
  {
    if |s| > 0 {
      assert s == [s[0]] + s[1..];
      AllLoopEvents(s[1..]);
    }
  }

  class Renderer {
    const alignedUniformsSize: nat
    const uniformBufferSize: nat
    const rasterSampleCount: nat
    const layout: LayerLayout
    const depthState: DepthStencilDescriptor
    /** The shared uniform buffer, one `UniformsArray` region per slot. */
    const dynamicUniformBuffer: array<UniformsArray>
    const memorylessTargets: array<Option<TargetPair>>

    var uniformBufferOffset: nat
    var uniformBufferIndex: nat
    /** The byte offset the `uniforms` pointer is bound at. */
    var uniforms: nat
    var memorylessTargetIndex: nat

    /** The in-flight limiter: free slots, the slot taken by the frame being
        encoded, and command buffers committed but not yet completed. */
    var semaphoreValue: nat
    var acquired: nat
    var outstanding: nat

    /** The uniform slots of the committed command buffers the GPU has not
        completed yet, oldest first. */
    ghost var inFlight: seq<nat>
    /** The current slot belongs to a frame that has claimed it and not yet
        committed its command buffer. */
    ghost var encoding: bool

    /** The app model's `immersiveSpaceState`. */
    var immersiveSpaceState: ImmersiveSpaceState
    var trace: seq<Event>

    ghost predicate Valid()
      reads this, memorylessTargets
    {
      && alignedUniformsSize > 0
      && alignedUniformsSize % UniformAlignment == 0
      && uniformBufferSize == UniformBufferSize(alignedUniformsSize)
      && dynamicUniformBuffer.Length == MaxBuffersInFlight
      && memorylessTargets.Length == MaxBuffersInFlight
      && uniformBufferIndex < MaxBuffersInFlight
      && uniformBufferOffset == SlotOffset(alignedUniformsSize, uniformBufferIndex)
      && uniforms == uniformBufferOffset
      && memorylessTargetIndex < MaxBuffersInFlight
      && (forall j :: 0 <= j < MaxBuffersInFlight && memorylessTargets[j].Some? ==>
            TransientTarget(memorylessTargets[j].value.color, rasterSampleCount) &&
            TransientTarget(memorylessTargets[j].value.depth, rasterSampleCount))
      && semaphoreValue + acquired + outstanding == MaxBuffersInFlight
      && acquired <= 1
      // the slots in flight are the ones the ring last went through
      && inFlight == Behind(if encoding then PrevSlot(uniformBufferIndex) else uniformBufferIndex, outstanding)
      && (encoding ==> acquired == 1)
      && (rasterSampleCount > 1 && !encoding ==> memorylessTargetIndex == uniformBufferIndex)
    }

    /** The frame state, as values. */
    ghost function State(): FrameState
      reads this, dynamicUniformBuffer, memorylessTargets
    {
      FrameState(uniformBufferIndex, dynamicUniformBuffer[..], memorylessTargetIndex, memorylessTargets[..],
                 semaphoreValue, acquired, outstanding, inFlight)
    }

    /** `init`, leaving out the Metal objects it creates. */
    constructor (uniformsArraySize: nat, supports32BitMSAA: bool, supportsTextureSampleCount4: bool,
                 layout: LayerLayout, immersiveSpaceState: ImmersiveSpaceState)
      requires uniformsArraySize > 0
      ensures Valid() && fresh(dynamicUniformBuffer) && fresh(memorylessTargets)
      ensures alignedUniformsSize == AlignedUniformsSize(uniformsArraySize)
      ensures uniformBufferSize == alignedUniformsSize * MaxBuffersInFlight
      ensures rasterSampleCount == RasterSampleCount(supports32BitMSAA, supportsTextureSampleCount4)
      ensures this.layout == layout && depthState == SkyboxDepthState
      ensures uniformBufferIndex == 0 && uniformBufferOffset == 0 && uniforms == 0
      ensures memorylessTargetIndex == 0
      ensures forall j :: 0 <= j < MaxBuffersInFlight ==> memorylessTargets[j] == None
      ensures semaphoreValue == MaxBuffersInFlight && acquired == 0 && outstanding == 0
      ensures inFlight == [] && !encoding
      ensures this.immersiveSpaceState == immersiveSpaceState && trace == []
    {
      var aligned := AlignedUniformsSize(uniformsArraySize);
      alignedUniformsSize := aligned;
      uniformBufferSize := aligned * MaxBuffersInFlight;
      rasterSampleCount := RasterSampleCount(supports32BitMSAA, supportsTextureSampleCount4);
      this.layout := layout;
      depthState := SkyboxDepthState;
      dynamicUniformBuffer := new UniformsArray[MaxBuffersInFlight](_ =>
        UniformsArray(Uniforms(Unwritten, Unwritten), Uniforms(Unwritten, Unwritten)));
      memorylessTargets := new Option<TargetPair>[MaxBuffersInFlight](_ => None);
      uniformBufferOffset := 0;
      uniformBufferIndex := 0;
      uniforms := 0;
      memorylessTargetIndex := 0;
      semaphoreValue := MaxBuffersInFlight;
      acquired := 0;
      outstanding := 0;
      inFlight := [];
      encoding := false;
      this.immersiveSpaceState := immersiveSpaceState;
      trace := [];
    }

    // ---- the uniform ring ----

    /** The uniform slot moved on by one, with offset and pointer following it. */
    twostate predicate UniformsRotated()
      reads this
    {
      && uniformBufferIndex == (old(uniformBufferIndex) + 1) % MaxBuffersInFlight
      && uniformBufferOffset == alignedUniformsSize * uniformBufferIndex
      && uniforms == uniformBufferOffset
    }

    /** updateDynamicBufferState(), called once the frame holds a semaphore
        slot: the frame claims the next slot, which no uncompleted submission
        holds. */
    method UpdateDynamicBufferState()
      requires Valid() && acquired == 1 && !encoding
      modifies this`uniformBufferIndex, this`uniformBufferOffset, this`uniforms, this`encoding
      ensures Valid() && UniformsRotated() && encoding
      ensures uniformBufferIndex == NextSlot(old(uniformBufferIndex))
      ensures uniformBufferOffset + alignedUniformsSize <= uniformBufferSize
      ensures uniformBufferIndex !in inFlight
    {
      BehindExcludesNext(uniformBufferIndex, outstanding);
      uniformBufferIndex := (uniformBufferIndex + 1) % MaxBuffersInFlight;
      uniformBufferOffset := alignedUniformsSize * uniformBufferIndex;
      uniforms := uniformBufferOffset;
      encoding := true;
      SlotFitsBuffer(alignedUniformsSize, uniformBufferIndex);
    }

    /** updateGameState(drawable:deviceAnchor:): the region under the
        `uniforms` pointer, which is the current slot's, gets the per-view
        uniforms; every other region is as it was. No uncompleted submission
        reads that region. */
    method UpdateGameState(drawable: Drawable, deviceAnchor: Option<Matrix>)
      requires Valid() && encoding && WellFormed(drawable)
      modifies dynamicUniformBuffer
      ensures dynamicUniformBuffer[..] == old(dynamicUniformBuffer[..])[uniformBufferIndex :=
                WriteUniforms(old(dynamicUniformBuffer[uniformBufferIndex]), drawable, deviceAnchor)]
      ensures uniformBufferIndex !in inFlight
    {
      BehindExcludesNext(PrevSlot(uniformBufferIndex), outstanding);
      var slot := RegionOf(alignedUniformsSize, uniforms);
      RegionOfSlotOffset(alignedUniformsSize, uniformBufferIndex);
      dynamicUniformBuffer[slot] := dynamicUniformBuffer[slot].(uniforms0 := ViewUniforms(drawable, deviceAnchor, 0));
      if |drawable.views| > 1 {
        dynamicUniformBuffer[slot] := dynamicUniformBuffer[slot].(uniforms1 := ViewUniforms(drawable, deviceAnchor, 1));
      }
    }

    // ---- the memoryless target cache ----

    /** memorylessRenderTargets(drawable:): the cache slot moves on by one and
        takes the returned pair, whose textures are the slot's previous ones
        where those had the drawable's size and new memoryless ones otherwise. */
    method MemorylessRenderTargets(drawable: Drawable) returns (targets: TargetPair)
      requires Valid() && encoding && WellFormed(drawable)
      modifies this`memorylessTargetIndex, memorylessTargets
      ensures Valid()
      ensures CacheAdvanced(old(memorylessTargets[..]), old(memorylessTargetIndex),
                            memorylessTargets[..], memorylessTargetIndex, targets)
      ensures ServedPair(targets, drawable, old(memorylessTargets[..])[memorylessTargetIndex], rasterSampleCount)
      ensures SizedFor(targets, drawable)
    {
      memorylessTargetIndex := (memorylessTargetIndex + 1) % MaxBuffersInFlight;
      var cachedTargets := memorylessTargets[memorylessTargetIndex];
      var color := RenderTarget(drawable.colorTextures[0], CachedColor(cachedTargets), rasterSampleCount);
      var depth := RenderTarget(drawable.depthTextures[0], CachedDepth(cachedTargets), rasterSampleCount);
      targets := TargetPair(color, depth);
      memorylessTargets[memorylessTargetIndex] := Some(targets);
    }

    // ---- the in-flight limiter ----

    /** A committed command buffer completes and its handler signals. */
    method CompleteOldestSubmission()
      requires Valid() && outstanding > 0
      modifies this`semaphoreValue, this`outstanding, this`trace, this`inFlight
      ensures Valid()
      ensures semaphoreValue == old(semaphoreValue) + 1 && outstanding == old(outstanding) - 1
      ensures inFlight == old(inFlight)[1..]
      ensures trace == old(trace) + [GpuCompleted]
    {
      BehindDropOldest(if encoding then PrevSlot(uniformBufferIndex) else uniformBufferIndex, outstanding);
      outstanding := outstanding - 1;
      semaphoreValue := semaphoreValue + 1;
      inFlight := inFlight[1..];
      trace := trace + [GpuCompleted];
    }

    /** inFlightSemaphore.wait(timeout: .distantFuture): when no slot is free
        the oldest submission completes first. */
    method WaitInFlight()
      requires Valid() && acquired == 0
      modifies this`semaphoreValue, this`acquired, this`outstanding, this`trace, this`inFlight
      ensures Valid() && acquired == 1
      ensures inFlight == StillInFlight(old(inFlight), old(semaphoreValue) == 0)
      ensures old(semaphoreValue) > 0 ==>
                semaphoreValue == old(semaphoreValue) - 1 && outstanding == old(outstanding) &&
                trace == old(trace) + [SemaphoreWait]
      ensures old(semaphoreValue) == 0 ==>
                semaphoreValue == 0 && outstanding == old(outstanding) - 1 &&
                trace == old(trace) + [GpuCompleted, SemaphoreWait]
    {
      if semaphoreValue == 0 {
        CompleteOldestSubmission();
      }
      semaphoreValue := semaphoreValue - 1;
      acquired := 1;
      trace := trace + [SemaphoreWait];
    }

    /** commandBuffer.commit(): the frame's slot is now held by the GPU. */
    method CommitCommandBuffer()
      requires Valid() && acquired == 1 && encoding
      requires rasterSampleCount > 1 ==> memorylessTargetIndex == uniformBufferIndex
      modifies this`acquired, this`outstanding, this`trace, this`inFlight, this`encoding
      ensures Valid() && acquired == 0 && outstanding == old(outstanding) + 1 && !encoding
      ensures inFlight == old(inFlight) + [uniformBufferIndex]
      ensures trace == old(trace) + [Commit]
    {
      acquired := 0;
      outstanding := outstanding + 1;
      inFlight := inFlight + [uniformBufferIndex];
      encoding := false;
      trace := trace + [Commit];
    }

    // ---- one frame ----

    /** The commands encoded on the render encoder, from the debug group to the draw. */
    method EncodeSkybox(drawable: Drawable)
      modifies this`trace
      ensures trace == old(trace) + EncodeEvents(drawable, uniformBufferOffset)
    {
      var commands := [PushDebugGroup("Draw Skybox")];
      commands := commands + [SetCullMode(CullFront)];
      commands := commands + [SetRenderPipelineState];
      commands := commands + [SetDepthStencilState];
      commands := commands + [SetVertexBuffer(SkyboxVertexBuffer, 0, MeshPositions)];
      commands := commands + [SetVertexBuffer(DynamicUniformBuffer, uniformBufferOffset, UniformsIndex)];
      commands := commands + [SetFragmentTexture(ColorTexture)];
      var viewports := Viewports(drawable.views);
      commands := commands + [SetViewports(viewports)];
      if |drawable.views| > 1 {
        var viewMappings := IdentityViewMappings(|drawable.views|);
        commands := commands + [SetVertexAmplificationCount(|viewports|, viewMappings)];
      }
      commands := commands + [DrawPrimitives(Triangle, 0, SkyboxVertexCount)];
      commands := commands + [PopDebugGroup];
      trace := trace + commands;
    }

    /** The part of renderFrame() from the semaphore wait on, for a frame
        that got a drawable. `pass` is the render-pass descriptor handed to
        the command buffer and `targets` the memoryless pair it renders into,
        if any. */
    method SubmitFrame(drawable: Drawable, deviceAnchor: Option<Matrix>, renderEncoderAvailable: bool)
      returns (outcome: FrameOutcome, pass: RenderPassDescriptor, targets: Option<TargetPair>)
      requires Valid() && acquired == 0 && WellFormed(drawable)
      modifies this`uniformBufferIndex, this`uniformBufferOffset, this`uniforms, this`memorylessTargetIndex
      modifies this`semaphoreValue, this`acquired, this`outstanding, this`trace, this`inFlight, this`encoding
      modifies dynamicUniformBuffer, memorylessTargets
      ensures Valid()
      ensures outcome == if renderEncoderAvailable then Submitted else Crashed(RenderEncoderUnavailable)
      ensures acquired == if renderEncoderAvailable then 0 else 1
      ensures outstanding == old(outstanding) - (if old(semaphoreValue) == 0 then 1 else 0)
                             + (if renderEncoderAvailable then 1 else 0)
      ensures trace == old(trace) + SubmissionEvents(drawable, deviceAnchor, old(semaphoreValue) == 0,
                                                     uniformBufferOffset, pass, renderEncoderAvailable)
      ensures uniformBufferIndex == NextSlot(old(uniformBufferIndex))
      ensures dynamicUniformBuffer[..] == old(dynamicUniformBuffer[..])[uniformBufferIndex :=
                WriteUniforms(old(dynamicUniformBuffer[..])[uniformBufferIndex], drawable, deviceAnchor)]
      ensures pass == PassDescriptor(drawable, targets, layout)
      ensures targets.Some? <==> rasterSampleCount > 1
      ensures targets.Some? ==>
                && CacheAdvanced(old(memorylessTargets[..]), old(memorylessTargetIndex),
                                 memorylessTargets[..], memorylessTargetIndex, targets.value)
                && ServedPair(targets.value, drawable, old(memorylessTargets[..])[memorylessTargetIndex], rasterSampleCount)
      ensures targets.None? ==>
                memorylessTargets[..] == old(memorylessTargets[..]) && memorylessTargetIndex == old(memorylessTargetIndex)
      ensures targets.Some? ==> memorylessTargetIndex == uniformBufferIndex
      ensures uniformBufferIndex !in StillInFlight(old(inFlight), old(semaphoreValue) == 0)
      ensures inFlight == StillInFlight(old(inFlight), old(semaphoreValue) == 0)
                          + (if renderEncoderAvailable then [uniformBufferIndex] else [])
    {
      ghost var blocked := semaphoreValue == 0;
      BeginSubmission(drawable, deviceAnchor);
      ghost var opening := trace;
      pass, targets := PrepareFrame(drawable, deviceAnchor);
      outcome := EncodeAndCommit(drawable, pass, renderEncoderAvailable);
      SubmissionEventsSplit(drawable, deviceAnchor, blocked, uniformBufferOffset, pass, renderEncoderAvailable,
                            old(trace), opening, trace);
    }

    /** From the semaphore wait to registering the completion handler. */
    method BeginSubmission(drawable: Drawable, deviceAnchor: Option<Matrix>)
      requires Valid() && acquired == 0
      modifies this`semaphoreValue, this`acquired, this`outstanding, this`trace, this`inFlight
      ensures Valid() && acquired == 1
      ensures inFlight == StillInFlight(old(inFlight), old(semaphoreValue) == 0)
      ensures outstanding == old(outstanding) - (if old(semaphoreValue) == 0 then 1 else 0)
      ensures trace == old(trace) + (if old(semaphoreValue) == 0 then [GpuCompleted] else []) + [SemaphoreWait]
                       + [StartSubmission, QueryDeviceAnchor(drawable.presentationTime),
                          SetDeviceAnchor(deviceAnchor), AddCompletedHandler]
    {
      WaitInFlight();
      ghost var waited := trace;
      trace := trace + [StartSubmission];
      trace := trace + [QueryDeviceAnchor(drawable.presentationTime)];
      trace := trace + [SetDeviceAnchor(deviceAnchor)];
      trace := trace + [AddCompletedHandler];
      assert trace == waited + [StartSubmission, QueryDeviceAnchor(drawable.presentationTime),
                                SetDeviceAnchor(deviceAnchor), AddCompletedHandler];
    }

    /** The uniform and render-target updates and the render-pass descriptor
        they feed; no effect reaches the trace. */
    method PrepareFrame(drawable: Drawable, deviceAnchor: Option<Matrix>)
      returns (pass: RenderPassDescriptor, targets: Option<TargetPair>)
      requires Valid() && acquired == 1 && !encoding && WellFormed(drawable)
      modifies this`uniformBufferIndex, this`uniformBufferOffset, this`uniforms, this`memorylessTargetIndex
      modifies this`encoding, dynamicUniformBuffer, memorylessTargets
      ensures Valid() && encoding
      ensures uniformBufferIndex !in inFlight
      ensures rasterSampleCount > 1 ==> memorylessTargetIndex == uniformBufferIndex
      ensures uniformBufferIndex == NextSlot(old(uniformBufferIndex))
      ensures dynamicUniformBuffer[..] == old(dynamicUniformBuffer[..])[uniformBufferIndex :=
                WriteUniforms(old(dynamicUniformBuffer[..])[uniformBufferIndex], drawable, deviceAnchor)]
      ensures pass == PassDescriptor(drawable, targets, layout)
      ensures targets.Some? <==> rasterSampleCount > 1
      ensures targets.Some? ==>
                && CacheAdvanced(old(memorylessTargets[..]), old(memorylessTargetIndex),
                                 memorylessTargets[..], memorylessTargetIndex, targets.value)
                && ServedPair(targets.value, drawable, old(memorylessTargets[..])[memorylessTargetIndex], rasterSampleCount)
      ensures targets.None? ==>
                memorylessTargets[..] == old(memorylessTargets[..]) && memorylessTargetIndex == old(memorylessTargetIndex)
    {
      UpdateDynamicBufferState();
      UpdateGameState(drawable, deviceAnchor);
      ghost var written := dynamicUniformBuffer[..];

      targets := None;
      if rasterSampleCount > 1 {
        assert memorylessTargets[..] == old(memorylessTargets[..]);
        var renderTargets := MemorylessRenderTargets(drawable);
        targets := Some(renderTargets);
        assert ServedPair(renderTargets, drawable, old(memorylessTargets[..])[memorylessTargetIndex], rasterSampleCount);
      }
      assert dynamicUniformBuffer[..] == written;
      pass := PassDescriptor(drawable, targets, layout);
    }

    /** From creating the render encoder to endSubmission, or the fatalError
        when no encoder is available. */
    method EncodeAndCommit(drawable: Drawable, pass: RenderPassDescriptor, renderEncoderAvailable: bool)
      returns (outcome: FrameOutcome)
      requires Valid() && acquired == 1 && encoding
      requires rasterSampleCount > 1 ==> memorylessTargetIndex == uniformBufferIndex
      modifies this`acquired, this`outstanding, this`trace, this`inFlight, this`encoding
      ensures Valid()
      ensures inFlight == old(inFlight) + (if renderEncoderAvailable then [uniformBufferIndex] else [])
      ensures outcome == if renderEncoderAvailable then Submitted else Crashed(RenderEncoderUnavailable)
      ensures acquired == if renderEncoderAvailable then 0 else 1
      ensures outstanding == old(outstanding) + (if renderEncoderAvailable then 1 else 0)
      ensures trace == old(trace) + [MakeRenderCommandEncoder(pass)]
                       + (if renderEncoderAvailable then
                            EncodeEvents(drawable, uniformBufferOffset) + [EndEncoding, EncodePresent, Commit, EndSubmission]
                          else [Fatal(RenderEncoderUnavailable)])
    {
      trace := trace + [MakeRenderCommandEncoder(pass)];
      ghost var encoderMade := trace;
      if !renderEncoderAvailable {
        trace := trace + [Fatal(RenderEncoderUnavailable)];
        return Crashed(RenderEncoderUnavailable);
      }
      EncodeSkybox(drawable);
      ghost var encoded := trace;
      trace := trace + [EndEncoding];
      trace := trace + [EncodePresent];
      CommitCommandBuffer();
      trace := trace + [EndSubmission];
      assert trace == encoded + [EndEncoding, EncodePresent, Commit, EndSubmission];
      assert encoded == encoderMade + EncodeEvents(drawable, uniformBufferOffset);
      outcome := Submitted;
    }

    /** renderFrame(), with the world's answers given as `inputs`. `pass` is
        the render-pass descriptor handed to the command buffer. */
    method RenderFrame(inputs: FrameInputs) returns (outcome: FrameOutcome, pass: Option<RenderPassDescriptor>)
      requires Valid() && acquired == 0 && InputsWellFormed(inputs)
      modifies this`uniformBufferIndex, this`uniformBufferOffset, this`uniforms, this`memorylessTargetIndex
      modifies this`semaphoreValue, this`acquired, this`outstanding, this`trace, this`inFlight, this`encoding
      modifies dynamicUniformBuffer, memorylessTargets
      ensures Valid()
      ensures outcome == OutcomeOf(inputs)
      ensures pass.Some? <==> Proceeds(inputs)
      ensures acquired == if outcome == Crashed(RenderEncoderUnavailable) then 1 else 0
      ensures !Proceeds(inputs) ==>
                && trace == old(trace) + PrologueEvents(inputs)
                && outstanding == old(outstanding) && semaphoreValue == old(semaphoreValue)
                && uniformBufferIndex == old(uniformBufferIndex) && memorylessTargetIndex == old(memorylessTargetIndex)
                && dynamicUniformBuffer[..] == old(dynamicUniformBuffer[..])
                && memorylessTargets[..] == old(memorylessTargets[..])
                && inFlight == old(inFlight)
      ensures Proceeds(inputs) ==>
                && uniformBufferIndex !in StillInFlight(old(inFlight), old(semaphoreValue) == 0)
                && inFlight == StillInFlight(old(inFlight), old(semaphoreValue) == 0)
                               + (if inputs.renderEncoderAvailable then [uniformBufferIndex] else [])
      ensures Proceeds(inputs) ==>
                && trace == old(trace) + FrameEvents(inputs, old(semaphoreValue) == 0, uniformBufferOffset, pass.value)
                && outstanding == old(outstanding) - (if old(semaphoreValue) == 0 then 1 else 0)
                                  + (if inputs.renderEncoderAvailable then 1 else 0)
                && uniformBufferIndex == NextSlot(old(uniformBufferIndex))
                && dynamicUniformBuffer[..] == old(dynamicUniformBuffer[..])[uniformBufferIndex :=
                     WriteUniforms(old(dynamicUniformBuffer[..])[uniformBufferIndex], DrawableOf(inputs), inputs.deviceAnchor)]
      ensures Proceeds(inputs) && rasterSampleCount > 1 ==>
                && memorylessTargets[memorylessTargetIndex].Some?
                && CacheAdvanced(old(memorylessTargets[..]), old(memorylessTargetIndex), memorylessTargets[..],
                                 memorylessTargetIndex, memorylessTargets[memorylessTargetIndex].value)
                && ServedPair(memorylessTargets[memorylessTargetIndex].value, DrawableOf(inputs),
                              old(memorylessTargets[..])[memorylessTargetIndex], rasterSampleCount)
                && memorylessTargetIndex == uniformBufferIndex
                && pass.value == PassDescriptor(DrawableOf(inputs), memorylessTargets[memorylessTargetIndex], layout)
      ensures Proceeds(inputs) && rasterSampleCount <= 1 ==>
                && memorylessTargets[..] == old(memorylessTargets[..]) && memorylessTargetIndex == old(memorylessTargetIndex)
                && pass.value == PassDescriptor(DrawableOf(inputs), None, layout)
    {
      var early := FramePrologue(inputs);
      if early.Some? {
        return early.value, None;
      }
      assert dynamicUniformBuffer[..] == old(dynamicUniformBuffer[..]);
      assert memorylessTargets[..] == old(memorylessTargets[..]);
      ghost var prologue := trace;
      var d := DrawableOf(inputs);
      var submitted, targets;
      outcome, submitted, targets := SubmitFrame(d, inputs.deviceAnchor, inputs.renderEncoderAvailable);
      pass := Some(submitted);
      ghost var submission := SubmissionEvents(d, inputs.deviceAnchor, old(semaphoreValue) == 0, uniformBufferOffset,
                                               submitted, inputs.renderEncoderAvailable);
      assert trace == prologue + submission;
      FrameEventsSplit(inputs, old(semaphoreValue) == 0, uniformBufferOffset, submitted, old(trace), prologue, trace);
    }

    /** renderFrame() up to its last early return: `early` is how the frame
        ends when it does not get as far as the semaphore wait. */
    method FramePrologue(inputs: FrameInputs) returns (early: Option<FrameOutcome>)
      modifies this`trace
      ensures early.None? <==> Proceeds(inputs)
      ensures early.Some? ==> early.value == OutcomeOf(inputs)
      ensures trace == old(trace) + PrologueEvents(inputs)
    {
      trace := trace + [QueryNextFrame];
      if inputs.frame.None? {
        return Some(Skipped);
      }
      var frame := inputs.frame.value;
      trace := trace + [StartUpdate];
      trace := trace + [EndUpdate];
      if frame.timing.None? {
        return Some(Skipped);
      }
      var timing := frame.timing.value;
      trace := trace + [WaitUntil(timing.optimalInputTime)];
      if !inputs.commandBufferAvailable {
        trace := trace + [Fatal(CommandBufferUnavailable)];
        return Some(Crashed(CommandBufferUnavailable));
      }
      if frame.drawable.None? {
        return Some(Skipped);
      }
      return None;
    }

    // ---- the render loop ----


    /** renderLoop(), with the layer-state reads and the world's answers of
        each pass given by `ticks`. It stops when the layer is invalidated,
        when a frame hits a fatalError, or when `ticks` runs out; `consumed`
        passes ran. */
    method RenderLoop(ticks: seq<Tick>)
      returns (exit: LoopExit, consumed: nat, ghost steps: seq<seq<Event>>,
               ghost passes: seq<Option<RenderPassDescriptor>>, ghost states: seq<FrameState>)
      requires Valid() && acquired == 0
      requires forall i :: 0 <= i < |ticks| ==> InputsWellFormed(ticks[i].inputs)
      modifies this`uniformBufferIndex, this`uniformBufferOffset, this`uniforms, this`memorylessTargetIndex
      modifies this`semaphoreValue, this`acquired, this`outstanding, this`trace, this`inFlight, this`encoding
      modifies this`immersiveSpaceState, dynamicUniformBuffer, memorylessTargets
      ensures Valid()
      ensures consumed == RunLength(ticks) && exit == ExitOf(ticks)
      ensures |old(trace)| <= |trace| && trace[..|old(trace)|] == old(trace)
      ensures LoopView(trace[|old(trace)|..]) == Plan(LayerStates(ticks)[..consumed], old(immersiveSpaceState))
      ensures immersiveSpaceState == AppStateAfter(LayerStates(ticks)[..consumed], old(immersiveSpaceState))
      ensures Count(trace[|old(trace)|..], IsSemaphoreWait) == ProceedingFrames(ticks[..consumed])
      ensures Count(trace[|old(trace)|..], IsCommit) == SubmittedFrames(ticks[..consumed])
      ensures Count(trace[|old(trace)|..], IsDraw) == SubmittedFrames(ticks[..consumed])
      ensures uniformBufferIndex == Advanced(old(uniformBufferIndex), ProceedingFrames(ticks[..consumed]))
      ensures !exit.FatalStop? ==> acquired == 0
      ensures PassesRecorded(ticks, consumed, old(immersiveSpaceState), steps, passes, states,
                             alignedUniformsSize, rasterSampleCount, layout)
      ensures states[0] == old(State()) && states[consumed] == State()
      ensures trace == old(trace) + Flatten(steps)
    {
      ghost var app := immersiveSpaceState;
      ghost var start := trace;
      ghost var firstIndex := uniformBufferIndex;
      ghost var added: seq<Event> := [];
      steps, passes, states := [], [], [State()];
      var stop: Option<LoopExit> := None;
      consumed := 0;
      while consumed < |ticks| && stop.None?
        invariant Valid()
        invariant consumed <= |ticks|
        invariant !(stop.Some? && stop.value.FatalStop?) ==> acquired == 0
        invariant trace == start + added
        invariant Recorded(ticks, consumed, app, added)
        invariant immersiveSpaceState == AppStateAfter(LayerStates(ticks)[..consumed], app)
        invariant uniformBufferIndex == Advanced(firstIndex, ProceedingFrames(ticks[..consumed]))
        invariant stop.None? ==> consumed <= FirstStop(ticks)
        invariant stop.Some? ==> consumed == FirstStop(ticks) + 1 && stop == LoopStop(ticks[consumed - 1])
        invariant PassesRecorded(ticks, consumed, app, steps, passes, states, alignedUniformsSize, rasterSampleCount, layout)
        invariant states[0] == old(State()) && states[consumed] == State()
        invariant added == Flatten(steps)
        decreases |ticks| - consumed
      {
        if consumed < FirstStop(ticks) {
          FirstStopIsFirst(ticks, consumed);
        }
        ghost var step, pass;
        stop, step, pass := AccountedPass(ticks, consumed, app, added, firstIndex);
        RecordStep(ticks, consumed, app, steps, passes, states, alignedUniformsSize, rasterSampleCount, layout,
                   step, pass, State());
        ConcatAssociates(start, added, step);
        added := added + step;
        steps, passes, states := steps + [step], passes + [pass], states + [State()];
        consumed := consumed + 1;
      }
      assert trace[|start|..] == added;
      exit := if stop.Some? then stop.value else TicksExhausted;
    }

    /** Pass `n` of renderLoop over `ticks`, with what it adds to the loop's
        record so far (`added`, from a start in app state `app`). */
    method AccountedPass(ticks: seq<Tick>, n: nat, ghost app: ImmersiveSpaceState, ghost added: seq<Event>,
                         ghost firstIndex: nat)
      returns (stop: Option<LoopExit>, ghost step: seq<Event>, ghost pass: Option<RenderPassDescriptor>)
      requires Valid() && acquired == 0 && n < |ticks| && InputsWellFormed(ticks[n].inputs)
      requires Recorded(ticks, n, app, added)
      requires immersiveSpaceState == AppStateAfter(LayerStates(ticks)[..n], app)
      requires firstIndex < MaxBuffersInFlight
      requires uniformBufferIndex == Advanced(firstIndex, ProceedingFrames(ticks[..n]))
      modifies this`uniformBufferIndex, this`uniformBufferOffset, this`uniforms, this`memorylessTargetIndex
      modifies this`semaphoreValue, this`acquired, this`outstanding, this`trace, this`inFlight, this`encoding
      modifies this`immersiveSpaceState, dynamicUniformBuffer, memorylessTargets
      ensures Valid()
      ensures stop == LoopStop(ticks[n])
      ensures !(stop.Some? && stop.value.FatalStop?) ==> acquired == 0
      ensures trace == old(trace) + step
      ensures Recorded(ticks, n + 1, app, added + step)
      ensures immersiveSpaceState == AppStateAfter(LayerStates(ticks)[..n + 1], app)
      ensures uniformBufferIndex == Advanced(firstIndex, ProceedingFrames(ticks[..n + 1]))
      ensures PassEffect(ticks[n], old(immersiveSpaceState), old(State()), State(), step, pass,
                         alignedUniformsSize, rasterSampleCount, layout)
    {
      ghost var appBefore := immersiveSpaceState;
      ghost var blocked := semaphoreValue == 0;
      ghost var indexBefore := uniformBufferIndex;
      stop, pass := LoopIteration(ticks[n]);
      IndexStep(ticks, n, firstIndex, indexBefore, uniformBufferIndex);
      step := IterationEvents(ticks[n], appBefore, blocked, uniformBufferOffset, pass);
      PassAccounting(ticks, n, app, added, appBefore, blocked, uniformBufferOffset, pass);
    }

    /** `autoreleasepool { self.renderFrame() }`: one frame, its trace and its
        effect on the frame state, with `pass` the descriptor it submitted. */
    method RenderFrameInPool(inputs: FrameInputs) returns (outcome: FrameOutcome, ghost pass: Option<RenderPassDescriptor>)
      requires Valid() && acquired == 0 && InputsWellFormed(inputs)
      modifies this`uniformBufferIndex, this`uniformBufferOffset, this`uniforms, this`memorylessTargetIndex
      modifies this`semaphoreValue, this`acquired, this`outstanding, this`trace, this`inFlight, this`encoding
      modifies dynamicUniformBuffer, memorylessTargets
      ensures Valid()
      ensures outcome == OutcomeOf(inputs)
      ensures acquired == if outcome == Crashed(RenderEncoderUnavailable) then 1 else 0
      ensures pass.Some? <==> Proceeds(inputs)
      ensures trace == old(trace) + FrameTrace(inputs, old(semaphoreValue) == 0, uniformBufferOffset, pass)
      ensures FrameEffect(old(State()), State(), inputs, rasterSampleCount, layout, pass)
      ensures Proceeds(inputs) && rasterSampleCount > 1 ==>
                && memorylessTargets[memorylessTargetIndex].Some?
                && ServedPair(memorylessTargets[memorylessTargetIndex].value, DrawableOf(inputs),
                              old(memorylessTargets[..])[memorylessTargetIndex], rasterSampleCount)
    {
      outcome, pass := RenderFrame(inputs);
    }

    /** One pass of renderLoop's `while true`: `stop` says whether the loop
        ends here and why, and `pass` is the descriptor of the frame the pass
        ran, if that frame got so far. A pass that does not run a frame
        leaves the frame state as it was. */
    method LoopIteration(tick: Tick) returns (stop: Option<LoopExit>, ghost pass: Option<RenderPassDescriptor>)
      requires Valid() && acquired == 0 && InputsWellFormed(tick.inputs)
      modifies this`uniformBufferIndex, this`uniformBufferOffset, this`uniforms, this`memorylessTargetIndex
      modifies this`semaphoreValue, this`acquired, this`outstanding, this`trace, this`inFlight, this`encoding
      modifies this`immersiveSpaceState, dynamicUniformBuffer, memorylessTargets
      ensures Valid()
      ensures stop == LoopStop(tick)
      ensures !(stop.Some? && stop.value.FatalStop?) ==> acquired == 0
      ensures immersiveSpaceState == NextAppState(Branch(tick))
      ensures Branch(tick) == Running ==> (pass.Some? <==> Proceeds(tick.inputs))
      ensures trace == old(trace) + IterationEvents(tick, old(immersiveSpaceState), old(semaphoreValue) == 0,
                                                    uniformBufferOffset, pass)
      ensures Branch(tick) != Running ==> State() == old(State())
      ensures Branch(tick) == Running ==> FrameEffect(old(State()), State(), tick.inputs, rasterSampleCount, layout, pass)
      ensures Branch(tick) == Running && Proceeds(tick.inputs) && rasterSampleCount > 1 ==>
                && memorylessTargets[memorylessTargetIndex].Some?
                && ServedPair(memorylessTargets[memorylessTargetIndex].value, DrawableOf(tick.inputs),
                              old(memorylessTargets[..])[memorylessTargetIndex], rasterSampleCount)
      ensures uniformBufferIndex == if Branch(tick) == Running && Proceeds(tick.inputs)
                                    then NextSlot(old(uniformBufferIndex)) else old(uniformBufferIndex)
    {
      if tick.firstRead == Invalidated {
        stop, pass := InvalidatedPass(tick);
      } else if tick.secondRead == Paused {
        stop, pass := PausedPass(tick);
      } else {
        stop, pass := RunningPass(tick);
      }
    }

    /** The invalidated branch of a pass: post `.closed` and end the loop. */
    method InvalidatedPass(tick: Tick) returns (stop: Option<LoopExit>, ghost pass: Option<RenderPassDescriptor>)
      requires Valid() && tick.firstRead == Invalidated
      modifies this`trace, this`immersiveSpaceState
      ensures Valid()
      ensures stop == LoopStop(tick) == Some(LayerInvalidated)
      ensures immersiveSpaceState == NextAppState(Branch(tick)) == Closed
      ensures trace == old(trace) + IterationEvents(tick, old(immersiveSpaceState), old(semaphoreValue) == 0,
                                                    uniformBufferOffset, pass)
    {
      trace := trace + [Notify(Closed)];
      immersiveSpaceState := Closed;
      stop, pass := Some(LayerInvalidated), None;
      assert IterationEvents(tick, old(immersiveSpaceState), old(semaphoreValue) == 0, uniformBufferOffset, pass)
          == [Notify(Closed)];
    }

    /** The paused branch of a pass: post `.inTransition` and wait until the
        layer runs again. */
    method PausedPass(tick: Tick) returns (stop: Option<LoopExit>, ghost pass: Option<RenderPassDescriptor>)
      requires Valid() && tick.firstRead != Invalidated && tick.secondRead == Paused
      modifies this`trace, this`immersiveSpaceState
      ensures Valid()
      ensures stop == LoopStop(tick) == None
      ensures immersiveSpaceState == NextAppState(Branch(tick)) == InTransition
      ensures trace == old(trace) + IterationEvents(tick, old(immersiveSpaceState), old(semaphoreValue) == 0,
                                                    uniformBufferOffset, pass)
    {
      trace := trace + [Notify(InTransition)];
      immersiveSpaceState := InTransition;
      trace := trace + [WaitUntilRunning];
      stop, pass := None, None;
      assert trace == old(trace) + [Notify(InTransition), WaitUntilRunning];
      assert IterationEvents(tick, old(immersiveSpaceState), old(semaphoreValue) == 0, uniformBufferOffset, pass)
          == [Notify(InTransition), WaitUntilRunning];
    }

    /** The running branch of a pass: the `.open` notice unless already open,
        then one frame in its autorelease pool. */
    method RunningPass(tick: Tick) returns (stop: Option<LoopExit>, ghost pass: Option<RenderPassDescriptor>)
      requires Valid() && acquired == 0 && InputsWellFormed(tick.inputs) && Branch(tick) == Running
      modifies this`uniformBufferIndex, this`uniformBufferOffset, this`uniforms, this`memorylessTargetIndex
      modifies this`semaphoreValue, this`acquired, this`outstanding, this`trace, this`inFlight, this`encoding
      modifies this`immersiveSpaceState, dynamicUniformBuffer, memorylessTargets
      ensures Valid()
      ensures stop == LoopStop(tick)
      ensures stop.None? ==> acquired == 0
      ensures immersiveSpaceState == NextAppState(Branch(tick))
      ensures pass.Some? <==> Proceeds(tick.inputs)
      ensures trace == old(trace) + IterationEvents(tick, old(immersiveSpaceState), old(semaphoreValue) == 0,
                                                    uniformBufferOffset, pass)
      ensures FrameEffect(old(State()), State(), tick.inputs, rasterSampleCount, layout, pass)
      ensures Proceeds(tick.inputs) && rasterSampleCount > 1 ==>
                && memorylessTargets[memorylessTargetIndex].Some?
                && ServedPair(memorylessTargets[memorylessTargetIndex].value, DrawableOf(tick.inputs),
                              old(memorylessTargets[..])[memorylessTargetIndex], rasterSampleCount)
    {
      ghost var before := State();
      if immersiveSpaceState != Open {
        trace := trace + [Notify(Open)];
        immersiveSpaceState := Open;
      }
      assert State() == before;
      var outcome;
      ghost var noticed := trace;
      outcome, pass := RenderFrameInPool(tick.inputs);
      stop := if outcome.Crashed? then Some(FatalStop(outcome.error)) else None;
      ghost var notice := OpenNotice(old(immersiveSpaceState));
      ghost var frame := FrameTrace(tick.inputs, old(semaphoreValue) == 0, uniformBufferOffset, pass);
      assert noticed == old(trace) + notice;
      assert IterationEvents(tick, old(immersiveSpaceState), old(semaphoreValue) == 0, uniformBufferOffset, pass)
          == notice + frame;
      ConcatAssociates(old(trace), notice, frame);
    }
  }
}

=== FILE: target_cache.dfy ===
/**
 * The transient render-target cache's reuse policy: the inner `renderTarget`
 * of `memorylessRenderTargets`. The cache array itself belongs to the
 * renderer (module Skybox).
 */
module TargetCache {
  import opened Wrappers
  import opened Graphics

  /** One cache entry: the multisampled colour and depth targets of a frame. */
  datatype TargetPair = TargetPair(color: Texture, depth: Texture)

  /** The cached texture may be reused exactly when there is one and its width
      and height equal the resolve texture's. Nothing else is compared. */
  predicate Reusable(resolveTexture: Texture, cachedTexture: Option<Texture>)
  {
    cachedTexture.Some?
    && resolveTexture.descriptor.width == cachedTexture.value.descriptor.width
    && resolveTexture.descriptor.height == cachedTexture.value.descriptor.height
  }

  /** What a transient target for `resolve` is: a render-target-only,
      non-mipmapped, memoryless multisample array texture with the resolve
      texture's format, size and layer count, and `sampleCount` samples. */
  predicate IsMemorylessTargetFor(d: TextureDescriptor, resolve: TextureDescriptor, sampleCount: nat)
  {
    && d.textureType == Type2DMultisampleArray
    && d.pixelFormat == resolve.pixelFormat
    && d.width == resolve.width
    && d.height == resolve.height
    && !d.mipmapped
    && d.usage == RenderTargetUsage
    && d.storageMode == Memoryless
    && d.sampleCount == sampleCount
    && d.arrayLength == resolve.arrayLength
  }

  /** The descriptor `renderTarget` builds: a 2D descriptor from the resolve
      texture's format and size, then usage, type, sample count, storage mode
      and array length set one by one. */
  function MemorylessDescriptor(resolve: TextureDescriptor, sampleCount: nat): (d: TextureDescriptor)
    ensures IsMemorylessTargetFor(d, resolve, sampleCount)
  {
    var descriptor := Texture2DDescriptor(resolve.pixelFormat, resolve.width, resolve.height, false);
    var descriptor := descriptor.(usage := RenderTargetUsage);
    var descriptor := descriptor.(textureType := Type2DMultisampleArray);
    var descriptor := descriptor.(sampleCount := sampleCount);
    var descriptor := descriptor.(storageMode := Memoryless);
    descriptor.(arrayLength := resolve.arrayLength)
  }

  /** The decision `renderTarget` takes: hand back the cached texture, or
      allocate one from a descriptor. */
  datatype TargetChoice = Reuse(texture: Texture) | Allocate(descriptor: TextureDescriptor)

  function ChooseTarget(resolveTexture: Texture, cachedTexture: Option<Texture>, sampleCount: nat): (c: TargetChoice)
    ensures c.Reuse? <==> Reusable(resolveTexture, cachedTexture)
    ensures c.Reuse? ==> c.texture == cachedTexture.value
    ensures c.Allocate? ==> IsMemorylessTargetFor(c.descriptor, resolveTexture.descriptor, sampleCount)
  {
    if Reusable(resolveTexture, cachedTexture) then
      Reuse(cachedTexture.value)
    else
      Allocate(MemorylessDescriptor(resolveTexture.descriptor, sampleCount))
  }

  /** Whatever the choice, the target has the resolve texture's width and height. */
  lemma TargetMatchesResolution(resolveTexture: Texture, cachedTexture: Option<Texture>, sampleCount: nat)
    ensures var c := ChooseTarget(resolveTexture, cachedTexture, sampleCount);
            var d := if c.Reuse? then c.texture.descriptor else c.descriptor;
            d.width == resolveTexture.descriptor.width && d.height == resolveTexture.descriptor.height
  {
  }

  /** `t` is what `renderTarget` may answer: the cached texture when it may
      be reused, otherwise a texture allocated during the call from the
      memoryless descriptor. */
  twostate predicate ServedFrom(new t: Texture, resolveTexture: Texture, cachedTexture: Option<Texture>, sampleCount: nat)
  {
    if Reusable(resolveTexture, cachedTexture) then t == cachedTexture.value
    else fresh(t) && t.descriptor == MemorylessDescriptor(resolveTexture.descriptor, sampleCount)
  }

  /** The colour and depth textures of an optional cache entry:
      `cachedTargets?.color` and `cachedTargets?.depth`. */
  function CachedColor(entry: Option<TargetPair>): Option<Texture>
  {
    if entry.Some? then Some(entry.value.color) else None
  }

  function CachedDepth(entry: Option<TargetPair>): Option<Texture>
  {
    if entry.Some? then Some(entry.value.depth) else None
  }

  /** renderTarget(resolveTexture:cachedTexture:): the cached texture when it
      may be reused, otherwise a new memoryless texture. */
  method RenderTarget(resolveTexture: Texture, cachedTexture: Option<Texture>, sampleCount: nat) returns (t: Texture)
    ensures ServedFrom(t, resolveTexture, cachedTexture, sampleCount)
    ensures t.descriptor.width == resolveTexture.descriptor.width
    ensures t.descriptor.height == resolveTexture.descriptor.height
  {
    match ChooseTarget(resolveTexture, cachedTexture, sampleCount)
    case Reuse(cached) =>
      t := cached;
    case Allocate(descriptor) =>
      t := new Texture(descriptor);
  }
}

=== FILE: uniform_ring.dfy ===
/**
 * The uniform ring: one backing buffer of `MaxBuffersInFlight` regions, each
 * `AlignedUniformsSize(size)` bytes long, one per frame in flight.
 */
module UniformRing {

  /** maxBuffersInFlight: frames in flight at once, and the number of uniform
      regions and of transient-target cache slots. */
  const MaxBuffersInFlight: nat := 3

  /** The buffer-offset alignment the uniform regions are rounded up to. */
  const UniformAlignment: nat := 256

  /** `x & -0x100` on a non-negative Swift Int: the low eight bits cleared. */
  function ClearLowByte(x: nat): nat
  {
    x - x % 0x100
  }

  /** alignedUniformsSize = (MemoryLayout<UniformsArray>.size + 0xFF) & -0x100:
      the smallest multiple of 256 that holds the uniform structure. */
  function AlignedUniformsSize(size: nat): (aligned: nat)
    ensures aligned % UniformAlignment == 0
    ensures size <= aligned < size + UniformAlignment
    ensures size > 0 ==> aligned > 0
  {
    ClearLowByte(size + 0xFF)
  }

  /** No smaller multiple of 256 holds the structure. */
  lemma AlignedUniformsSizeIsLeast(size: nat, m: nat)
    requires m % UniformAlignment == 0 && size <= m
    ensures AlignedUniformsSize(size) <= m
  {
  }

  /** uniformBufferSize = alignedUniformsSize * maxBuffersInFlight: the
      buffer ends exactly where the last slot's region ends, and keeps the
      256-byte alignment of the regions. */
  function UniformBufferSize(aligned: nat): (size: nat)
    ensures size == SlotOffset(aligned, MaxBuffersInFlight - 1) + aligned
    ensures aligned % UniformAlignment == 0 ==> size % UniformAlignment == 0
  {
    aligned * MaxBuffersInFlight
  }

  /** (uniformBufferIndex + 1) % maxBuffersInFlight. Swift's `%` truncates,
      which agrees with Dafny's on the non-negative indices used here. */
  function NextSlot(index: nat): (next: nat)
    requires index < MaxBuffersInFlight
    ensures next < MaxBuffersInFlight
    ensures next == if index == MaxBuffersInFlight - 1 then 0 else index + 1
  {
    (index + 1) % MaxBuffersInFlight
  }

  /** After MaxBuffersInFlight advances the ring is back where it started, and
      the slots it passes through on the way are all different. */
  lemma {:induction false} RotationPeriod(index: nat)
    requires index < MaxBuffersInFlight
    ensures NextSlot(NextSlot(NextSlot(index))) == index
    ensures index != NextSlot(index) && index != NextSlot(NextSlot(index))
    ensures NextSlot(index) != NextSlot(NextSlot(index))
  {
  }

  /** The slot the ring reaches from `first` after `k` advances. */
  function Advanced(first: nat, k: nat): (slot: nat)
    requires first < MaxBuffersInFlight
    ensures slot < MaxBuffersInFlight
    decreases k
  {
    if k == 0 then first else NextSlot(Advanced(first, k - 1))
  }

  /** `k` advances from `first` land on `(first + k) % MaxBuffersInFlight`:
      the ring wraps around after its last slot. */
  lemma {:induction false} AdvancedWraps(first: nat, k: nat)
    requires first < MaxBuffersInFlight
    ensures Advanced(first, k) == (first + k) % MaxBuffersInFlight
    decreases k
  {
    if k > 0 {
      AdvancedWraps(first, k - 1);
      WrapStep(first + k - 1);
    }
  }

  /** One rotation from the slot of `n` is the slot of `n + 1`. */
  lemma WrapStep(n: nat)
    ensures NextSlot(n % MaxBuffersInFlight) == (n + 1) % MaxBuffersInFlight
  {
    var q, r := n / MaxBuffersInFlight, n % MaxBuffersInFlight;
    assert n == MaxBuffersInFlight * q + r;
    if r == MaxBuffersInFlight - 1 {
      assert n + 1 == MaxBuffersInFlight * (q + 1);
    } else {
      assert n + 1 == MaxBuffersInFlight * q + (r + 1);
    }
  }

  /** The slot the ring used before `index`. */
  function PrevSlot(index: nat): (prev: nat)
    requires index < MaxBuffersInFlight
    ensures prev < MaxBuffersInFlight && NextSlot(prev) == index
  {
    (index + MaxBuffersInFlight - 1) % MaxBuffersInFlight
  }

  /** The `n` slots the ring went through up to and including `last`, oldest first. */
  function Behind(last: nat, n: nat): (slots: seq<nat>)
    requires last < MaxBuffersInFlight
    ensures |slots| == n
    decreases n
  {
    if n == 0 then [] else Behind(PrevSlot(last), n - 1) + [last]
  }

  /** Dropping the oldest of those slots leaves the ones after it. */
  lemma {:induction false} BehindDropOldest(last: nat, n: nat)
    requires last < MaxBuffersInFlight && n > 0
    ensures Behind(last, n)[1..] == Behind(last, n - 1)
    decreases n
  {
    if n > 1 {
      BehindDropOldest(PrevSlot(last), n - 1);
      assert Behind(last, n)[1..] == Behind(PrevSlot(last), n - 1)[1..] + [last];
    }
  }

  /** Fewer than MaxBuffersInFlight slots ending at `last` never include the
      slot after it. */
  lemma BehindExcludesNext(last: nat, n: nat)
    requires last < MaxBuffersInFlight && n < MaxBuffersInFlight
    ensures NextSlot(last) !in Behind(last, n)
  {
    if n == 2 {
      assert Behind(last, n) == [PrevSlot(last), last];
    } else if n == 1 {
      assert Behind(last, n) == [last];
    }
  }

  /** uniformBufferOffset = alignedUniformsSize * uniformBufferIndex: with a
      256-aligned region size every slot starts on a 256-byte boundary. */
  function SlotOffset(aligned: nat, index: nat): (offset: nat)
    ensures aligned % UniformAlignment == 0 ==> offset % UniformAlignment == 0
  {
    MultipleOfAligned(aligned, index);
    aligned * index
  }

  /** A multiple of a 256-aligned size is 256-aligned. */
  lemma MultipleOfAligned(aligned: nat, k: nat)
    ensures aligned % UniformAlignment == 0 ==> (aligned * k) % UniformAlignment == 0
  {
    if aligned % UniformAlignment == 0 {
      var q := aligned / UniformAlignment;
      assert aligned * k == UniformAlignment * (q * k);
    }
  }

  /** The region a byte offset falls into. */
  function RegionOf(aligned: nat, offset: nat): nat
    requires aligned > 0
  {
    offset / aligned
  }

  /** A product with a positive factor is at least the other factor. */
  lemma {:induction false} MulAtLeast(a: nat, d: nat)
    requires d >= 1
    ensures a * d >= a
  {
    if d > 1 {
      MulAtLeast(a, d - 1);
      assert a * d == a * (d - 1) + a;
    }
  }

  /** Multiplying by a positive factor preserves a strict order. */
  lemma {:induction false} MulStrictlyMonotone(a: nat, x: nat, y: nat)
    requires a > 0 && x < y
    ensures a * x + a <= a * y
  {
    MulAtLeast(a, y - x);
    assert a * y == a * x + a * (y - x);
  }

  /** The region at a slot's offset is that slot's region: the uniform pointer
      rebound to `contents() + uniformBufferOffset` writes slot `uniformBufferIndex`. */
  lemma {:induction false} RegionOfSlotOffset(aligned: nat, index: nat)
    requires aligned > 0
    ensures RegionOf(aligned, SlotOffset(aligned, index)) == index
  {
    var n := aligned * index;
    var q := n / aligned;
    assert aligned * q <= n < aligned * q + aligned;
    if q < index {
      MulStrictlyMonotone(aligned, q, index);
    } else if index < q {
      MulStrictlyMonotone(aligned, index, q);
    }
  }

  /** Every slot's region lies inside the backing buffer. */
  lemma {:induction false} SlotFitsBuffer(aligned: nat, index: nat)
    requires index < MaxBuffersInFlight
    ensures SlotOffset(aligned, index) + aligned <= UniformBufferSize(aligned)
  {
    assert aligned * index + aligned == aligned * (index + 1);
    assert aligned * (index + 1) <= aligned * MaxBuffersInFlight;
  }

  /** The regions of two different slots do not overlap. */
  lemma {:induction false} SlotRegionsDisjoint(aligned: nat, i: nat, j: nat)
    requires i < MaxBuffersInFlight && j < MaxBuffersInFlight && i != j
    ensures SlotOffset(aligned, i) + aligned <= SlotOffset(aligned, j)
         || SlotOffset(aligned, j) + aligned <= SlotOffset(aligned, i)
  {
    if i < j {
      assert aligned * j == aligned * (i + 1) + aligned * (j - i - 1);
    } else {
      assert aligned * i == aligned * (j + 1) + aligned * (i - j - 1);
    }
  }
}

=== FILE: wrappers.dfy ===
/** The optional value Swift writes as `T?`. */
module Wrappers {
  datatype Option<+T> = None | Some(value: T)
}
